=== FILE: README.md ===
# Storefront cart, currency and checkout — a Dafny model

This project models the decision logic of a small clothing storefront (a React
front end with an Express helper server). It covers:

- the cart reducer, with its two totals;
- the exchange-rate ladder, both the browser's cookie-cached version and the
  server's `/api/rates` handler with its in-process TTL cache;
- the price formatter's table lookups and option handling;
- the visitor's location and currency, and the currency context around it;
- the product search filter;
- the Airtable record codec;
- the checkout submit sequence.

Everything is a pure function over immutable datatypes. Anything external is a
parameter: cookies, the clock, API-key settings, the outcome of every remote call
(exchange-rate services, geolocation service, payment gateway, e-mail service,
Airtable) and the locale number renderer. Each function therefore maps
(state, inputs, outcomes) to (result, new state).

| file | module | source |
|---|---|---|
| `js.dfy` | `Js` | JavaScript values the code relies on: `undefined`, truthiness, `a \|\| b`, fetch outcomes |
| `text.dfy` | `Text` | `trim`, `toLowerCase`, `includes`, `join`, number printing |
| `seqs.dfy` | `Seqs` | order-preserving filter, sums (`reduce`), sub-sequences |
| `airtable.dfy` | `Airtable` | `src/utils/airtable.ts` |
| `cart.dfy` | `Cart` | `src/context/CartContext.tsx` |
| `cart_page.dfy` | `CartPage` | the cart-line buttons of `src/pages/Cart.tsx` and `src/components/CartSidebar.tsx` |
| `exchange_rate.dfy` | `ExchangeRate` | `src/utils/convertCurrency.ts` |
| `rates_server.dfy` | `RatesServer` | `/api/rates` in `server/server.js` |
| `format_price.dfy` | `FormatPrice` | `src/utils/formatPrice.ts` |
| `user_currency.dfy` | `UserCurrency` | `src/utils/getUserCurrency.ts` |
| `currency_context.dfy` | `CurrencyContext` | `src/context/CurrencyContext.tsx` |
| `search.dfy` | `Search` | `src/context/SearchContext.tsx` |
| `checkout.dfy` | `Checkout` | `src/pages/Checkout.tsx` |

Some behaviour a storefront might be expected to have is absent from the code,
and so from the model:

- the cart never consults stock, so there is no per-size stock ceiling;
- sizes are optional;
- no tax is added, and shipping is the constant 0;
- the checkout neither decrements inventory nor clears the cart;
- a failed order e-mail is shown as an error, with success left unset.

## Model

Definitions that only name a condition or a step, such as `RatesServer.Hit`
(node-cache's live-and-truthy read) and `CartPage.Press` (the reducer call a
button makes), have no row of their own; the contracts of the members that use
them state what they mean.

| member | source | states |
|---|---|---|
| `Js.OrElse` | src/utils/getUserCurrency.ts:45-48 | `a \|\| b` on optional strings: `a` when it is defined and non-empty, `b` otherwise; with a non-empty default the result is never empty |
| `Text.Trim` | src/context/SearchContext.tsx:41-45 | the result is a slice of the input, flanked on both sides by whitespace only, and neither starts nor ends with whitespace |
| `Text.TrimEmptyIffBlank` | src/context/SearchContext.tsx:41 | a string trims to "" exactly when it is whitespace only |
| `Text.Contains` | src/context/SearchContext.tsx:48-50 | `includes` is true exactly when the needle occurs at some position of the haystack |
| `Text.JoinAppend` | src/pages/Checkout.tsx:94 | joining one more part appends the separator and that part |
| `Text.NatToStringRoundTrip` | src/pages/Checkout.tsx:94 | the decimal rendering of a quantity reads back as the same number |
| `Airtable.AttachmentUrl` | src/utils/airtable.ts:64-66 | the first non-empty of the attachment's own URL, the large thumbnail's URL and the full thumbnail's URL, in that order; "" when none is non-empty or there is no attachment |
| `Airtable.DecodeImages` | src/utils/airtable.ts:64-66 | a missing Image field gives no URLs; otherwise the result is an in-order sub-sequence of the attachments' URLs that keeps every non-empty URL as often as it occurs and nothing else |
| `Airtable.DecodeRecord` | src/utils/airtable.ts:56-68 | each scalar column goes to its Product property; a missing Size becomes []; the image URLs are the decoded Image field |
| `Airtable.EncodeImages` | src/utils/airtable.ts:95 | one `{url}` attachment per URL, in order |
| `Airtable.EncodeProduct` | src/utils/airtable.ts:88-97 | every column is sent; undefined sizes are sent as [] |
| `Airtable.PatchFields` | src/utils/airtable.ts:155-166 | a column is present exactly when the patch defines that property, so an empty patch sends no fields |
| `Airtable.FullPatchMatchesCreate` | src/utils/airtable.ts:155-166 | a patch defining every property sends the same fields as creating the product |
| `Airtable.RoundTrip` | src/utils/airtable.ts:88-134 | decoding what `addProduct` sends returns the product, with empty image URLs dropped in order and undefined sizes as [] |
| `Airtable.AddProductReturnsProduct` | src/utils/airtable.ts:85-138 | once Airtable echoes the fields, `addProduct` answers with the product it was given under the id Airtable assigns (the caller's id is never sent), empty image URLs dropped and undefined sizes as [] |
| `Airtable.ShapedMessageInjective` | src/utils/airtable.ts:112-116 | distinct non-empty Airtable messages give distinct shaped messages |
| `Airtable.ErrorMessage` | src/utils/airtable.ts:112-116 | "Airtable error: " followed by the body's error message, or by "Unknown error" when there is none or it is empty |
| `Airtable.WriteOutcome` | src/utils/airtable.ts:111-138 | a rejected request or unreadable body is rethrown unchanged; a non-ok response fails with the shaped message; only an ok one succeeds, with the decoded record |
| `Airtable.DeleteOutcome` | src/utils/airtable.ts:219-239 | a rejection is rethrown unchanged; a non-ok response fails with the shaped message; only an ok response succeeds |
| `Airtable.FetchProducts` | src/utils/airtable.ts:43-72 | a rejection is rethrown; since the status is not read, any body without a record list (an error body included) fails; only a record list succeeds, with one decoded product per record, in order |
| `Cart.AddToCart` | src/context/CartContext.tsx:44-58 | a present key gets exactly one more unit, with length and other lines unchanged; an absent key is appended with quantity 1; unique keys and positive quantities are preserved |
| `Cart.RemoveFromCart` | src/context/CartContext.tsx:60-66 | no remaining line has the key; every other line stays, in order and as many times as it occurs; an absent key leaves the cart as it is; validity is preserved |
| `Cart.UpdateQuantity` | src/context/CartContext.tsx:69-78 | a quantity below 1 changes nothing; otherwise only the lines with the key take the new quantity; validity is preserved |
| `Cart.ClearCart` | src/context/CartContext.tsx:81-83 | the result is the empty cart, which is valid and has both totals 0 |
| `Cart.TotalItems` | src/context/CartContext.tsx:85 | the item count equals the left-to-right `reduce` of the quantities from 0; an empty cart counts 0 |
| `Cart.TotalPrice` | src/context/CartContext.tsx:86-89 | the price total equals the left-to-right `reduce` of price times quantity from 0; an empty cart totals 0 |
| `Cart.ItemsAtLeastLines` | src/context/CartContext.tsx:85 | with positive quantities the item count is at least the number of lines |
| `Cart.AddPresentIsPointUpdate` | src/context/CartContext.tsx:46-55 | in a valid cart, adding a present key updates that single line |
| `Cart.AddPresentTotals` | src/context/CartContext.tsx:46-55 | adding a present key raises the item count by 1 and the price total by that line's stored product price |
| `Cart.AddAbsentTotals` | src/context/CartContext.tsx:56 | adding a new key raises the item count by 1 and the price total by the product's price |
| `Cart.UpdateQuantityTotals` | src/context/CartContext.tsx:69-78 | updating a present key replaces that line's share of both totals |
| `Cart.RemovePresentDeletesLine` | src/context/CartContext.tsx:60-66 | in a valid cart, removing a present key deletes exactly that one line |
| `Cart.RemovePresentTotals` | src/context/CartContext.tsx:60-66 | removing a present key lowers both totals by exactly that line |
| `Cart.RemoveThenAdd` | src/context/CartContext.tsx:44-66 | removing a key and adding the product back appends a fresh line with quantity 1 |
| `Cart.UndefinedSizeTouchesOnlyUnsized` | src/context/CartContext.tsx:63-73 | calls with an undefined size never change or remove a line that has a size |
| `CartPage.PressAsWritten` | src/pages/Cart.tsx:37-41 | the buttons as written pass no size, so a sized line is never changed or removed by its own buttons |
| `CartPage.SizedButtonsDoNothing` | src/components/CartSidebar.tsx:49-55 | when every line of the product has a size, each button leaves the whole cart unchanged |
| `CartPage.SizedButtonsExample` | src/pages/Cart.tsx:37-41 | a one-line cart with size "M" and quantity 2 is unchanged by "+" and by "Remove" |
| `CartPage.PressCorrected` | src/pages/Cart.tsx:37-41 | passing the line's own size: "+" raises that line by 1; "-" lowers it down to 1 and no further; "Remove" deletes exactly that line; validity is preserved |
| `ExchangeRate.GetExchangeRate` | src/utils/convertCurrency.ts:10-117 | the rungs in order: same currency (exactly when the codes agree) gives 1 with no call and no write; a fresh cookie (exactly when one exists) answers with no call; otherwise the primary service answers when a key is configured and it succeeds; otherwise the backend answers when it succeeds; otherwise any stale cookie; otherwise 1. The primary service is called first and only with a key, the backend at most once after it; a fetched rate is written stamped with `writtenAt`, the clock as read after the awaited reply (not the `now` of the freshness test), and no other rung writes |
| `ExchangeRate.ConvertCurrency` | src/utils/convertCurrency.ts:119-126 | CAD returns the amount untouched; any other target multiplies by the ladder's CAD rate |
| `ExchangeRate.ConvertIsMultiplyByRate` | src/utils/convertCurrency.ts:119-126 | the CAD early return agrees with the ladder: conversion is always multiplication by the reported rate |
| `ExchangeRate.FetchedRateReused` | src/utils/convertCurrency.ts:20-72 | a rate fetched and stamped at `w` (the clock read after the reply) is served verbatim, with no call, to every lookup whose freshness test runs before `w + 12h` |
| `ExchangeRate.ExpiredRateRefetched` | src/utils/convertCurrency.ts:20-57 | from 12 hours after the stored timestamp on, a remote call is made |
| `ExchangeRate.CacheKeyInjective` | src/utils/convertCurrency.ts:16 | cookie names of different currency pairs differ, for codes without "_" |
| `RatesServer.HandleRates` | server/server.js:29-84 | a missing `to` gives 400; same currency gives 1, not cached; a cache hit is served as cached, without a fetch; a miss without a key is the no-key 500; a miss with a key fetches, and an upstream success is returned uncached and stored for 12 hours from `setAt`, the moment of `cache.set` after the awaited reply, while each upstream failure is the fetch-failed 500 with its own detail and the cache unchanged; only a 200 reply carries a rate, echoing the pair with `from` defaulting to CAD |
| `RatesServer.UpstreamDetail` | server/server.js:59-67 | a rejected request, the non-ok status, or the body's `error-type` when non-empty and "Unknown error" otherwise; the detail is never empty |
| `RatesServer.NoKeyNoFetch` | server/server.js:51-54 | a miss without an API key is a 500 that fetches and caches nothing |
| `RatesServer.FetchedRateServedFromCache` | server/server.js:41-75 | a fetched non-zero rate is served from the cache, marked cached, to every request up to 12 hours after it was stored |
| `RatesServer.UpstreamFailureKeepsCache` | server/server.js:56-83 | every kind of upstream failure gives the same 500 and leaves the cache unchanged |
| `FormatPrice.TableWellFormed` | src/utils/formatPrice.ts:21-55 | every table entry is filed under its own code and has a symbol; the CAD entry is the fallback |
| `FormatPrice.ConfigFor` | src/utils/formatPrice.ts:98 | a known code resolves to its own configuration; an unknown code resolves to CAD's |
| `FormatPrice.GetCurrencySymbol` | src/utils/formatPrice.ts:194-196 | the configured symbol for a known code, the code itself otherwise |
| `FormatPrice.MainFormat` | src/utils/formatPrice.ts:98-119 | compact notation exactly when requested and the converted amount is at least 1000; the target's locale and code, or CAD's for an unknown target |
| `FormatPrice.CodeSuffix` | src/utils/formatPrice.ts:122-124 | " CODE" is appended exactly when requested and the target is not CAD |
| `FormatPrice.CadSuffix` | src/utils/formatPrice.ts:127-136 | the CAD parenthetical of the unconverted amount is appended exactly when requested and the target is not CAD |
| `FormatPrice.Format` | src/utils/formatPrice.ts:81-151 | a failed conversion gives the CAD rendering of the original amount; otherwise the main rendering, then the code suffix, then the CAD suffix |
| `FormatPrice.FormatSync` | src/utils/formatPrice.ts:167-178 | the same request as the main format without compact notation |
| `FormatPrice.DefaultIsSync` | src/utils/formatPrice.ts:91 | with the default options nothing is appended, so the output equals the synchronous format of the converted amount |
| `FormatPrice.CadTargetHasNoSuffix` | src/utils/formatPrice.ts:122-136 | for a CAD target no option adds a suffix |
| `FormatPrice.SuffixOrder` | src/utils/formatPrice.ts:122-136 | with both suffixes requested, the code comes before the CAD parenthetical |
| `FormatPrice.FormatConvertedPrice` | src/utils/formatPrice.ts:81-151 | `formatPrice` renders the CAD amount times the rate the exchange-rate ladder looked up, then the suffixes; a CAD target is rendered unconverted with no suffix |
| `FormatPrice.UnknownFormatsAsCad` | src/utils/formatPrice.ts:169 | an unknown code is formatted exactly like CAD |
| `UserCurrency.Cached` | src/utils/getUserCurrency.ts:20-25 | a location exactly when all four cookies are non-empty, and then it is made of them |
| `UserCurrency.FromIp` | src/utils/getUserCurrency.ts:44-49 | each field defaults on its own; both currency fields come from the same property; every field is non-empty |
| `UserCurrency.Store` | src/utils/getUserCurrency.ts:57-60 | the four writes set `country`, `currency`, `currencyCode` and `countryCode` to the location's fields, so a complete location reads back; every other cookie keeps its value and no other cookie is added |
| `UserCurrency.GetUserCurrency` | src/utils/getUserCurrency.ts:17-83 | complete cookies answer without a request; otherwise a fetched answer is returned and written as the four location cookies, every other cookie kept; a failure falls back to the cookies as re-read, then to the default; the answer always has four non-empty fields |
| `UserCurrency.FetchedLocationReused` | src/utils/getUserCurrency.ts:57-60 | a fetched location is returned by the next call from the cookies, without a request |
| `UserCurrency.FailureWithUnchangedCookiesIsDefault` | src/utils/getUserCurrency.ts:64-81 | when the cookies did not change in between, the catch block's re-read finds nothing, so a failure gives the default |
| `UserCurrency.FullBodyTakenVerbatim` | src/utils/getUserCurrency.ts:44-49 | a body with every field present and non-empty is taken as is |
| `CurrencyContext.SetCurrency` | src/context/CurrencyContext.tsx:54-60 | both currency fields take the choice; country fields and the loading flag stay |
| `CurrencyContext.FinishLoad` | src/context/CurrencyContext.tsx:37-48 | loading ends; a rejected load keeps the previous location |
| `CurrencyContext.Load` | src/context/CurrencyContext.tsx:37-48 | a load ends with loading false and the resolved, complete location |
| `CurrencyContext.SetCurrencyLastWins` | src/context/CurrencyContext.tsx:54-60 | the last manual choice wins, and choosing twice is choosing once |
| `CurrencyContext.SelectCurrency` | src/components/CurrencySelector.tsx:12-19 | the state takes the choice as `setCurrency` does, and the `currency` and `currencyCode` cookies are set to it; no other cookie changes |
| `CurrencyContext.LoadIgnoresPriorState` | src/context/CurrencyContext.tsx:37-52 | a load's resulting state is the same whatever the state before it, so a `setCurrency` without a cookie write is lost on refresh |
| `CurrencyContext.SelectedCurrencySurvivesRefresh` | src/components/CurrencySelector.tsx:12-19 | with the country cookies set, a refresh after the selector reads the chosen currency back from the cookies, without a request |
| `CurrencyContext.SelectedCurrencyLostWithoutCountry` | src/components/CurrencySelector.tsx:12-19 | without the country cookie, a refresh after the selector takes the geolocation answer instead of the choice |
| `CurrencyContext.RefreshIsStable` | src/context/CurrencyContext.tsx:37-52 | after a load that fetched, every refresh reproduces the same state |
| `Search.FilterProducts` | src/context/SearchContext.tsx:40-52 | a blank query returns the list as is; otherwise a product is kept exactly when its lower-cased name, description or category contains the normalised query; the result is an order-preserving sub-sequence, and a matching product is kept as often as it is listed |
| `Search.FilterProductsIdempotent` | src/context/SearchContext.tsx:47-51 | filtering the results again with the same query changes nothing |
| `Search.QueryCaseInsensitive` | src/context/SearchContext.tsx:41-45 | a lower-cased query finds exactly what the original finds |
| `Search.SearchDistributes` | src/context/SearchContext.tsx:47-51 | searching a concatenation gives the two parts' results, one after the other |
| `Search.ClearSearch` | src/context/SearchContext.tsx:34-38 | from any state, back to an empty query, no results, not searching |
| `Checkout.ItemName` | src/pages/Checkout.tsx:32 | the product name, followed by " (Size: s)" exactly when the size s is non-empty |
| `Checkout.Summary` | src/pages/Checkout.tsx:30-40 | one item per cart line in order; shipping 0; subtotal and total equal the cart's total price; currency CAD |
| `Checkout.Cents` | src/pages/Checkout.tsx:56 | the amount in cents is within half a cent of the total, halves rounded up |
| `Checkout.Fail` | src/pages/Checkout.tsx:101-105 | the error is the thrown message when non-empty, "Payment failed" otherwise; loading ends; success is kept |
| `Checkout.HandleSubmit` | src/pages/Checkout.tsx:46-106 | loading always ends; the error is cleared exactly when every step succeeded; success is set then and never cleared; the first request is always the cart total in cents, in "cad"; the card is confirmed only with a secret and a mounted card; the e-mail is sent only after a succeeded payment; each failure shows its own message: the rejection's message (else "Payment failed"), "Failed to get payment secret", "Card element not found", the gateway's message, "Payment not successful" for a missing gateway or a status other than succeeded, and the e-mail service's message |
| `Checkout.OrderText` | src/pages/Checkout.tsx:94 | no items give ""; one item gives its "qty x name" line; otherwise the text starts with the first item's line |
| `Checkout.OrderTextAppend` | src/pages/Checkout.tsx:94 | the order text grows by one ", "-separated "qty x name" line per item |
| `Checkout.ChargedAmountMatchesCart` | src/pages/Checkout.tsx:56 | a total with a whole number of cents is charged exactly |
| `Checkout.MissingSecretStopsEarly` | src/pages/Checkout.tsx:60-61 | a missing secret fails with "Failed to get payment secret" before the card and the e-mail |
| `Checkout.GatewayMessageShown` | src/pages/Checkout.tsx:82 | a gateway error message is shown as given, and no e-mail is sent |
| `Checkout.EmailFailureAfterCharge` | src/pages/Checkout.tsx:85-102 | a failed e-mail after a succeeded payment leaves success unset and shows an error |
| `Checkout.SuccessIsSticky` | src/pages/Checkout.tsx:100-105 | once set, success survives any later submit |

## Left out

- Network, cookie, storage and clock I/O are parameters, not effects. The model does not cover:
  - the cart's `localStorage` persistence (src/context/CartContext.tsx:34-42);
  - `isCartOpen` with its toggles.
- `Intl.NumberFormat` output is the uninterpreted `render` parameter. The model fixes what is asked to be rendered, not the characters produced.
- Prices are `real`. Binary floating-point rounding is not modelled. `Math.round` is half-up rounding on exact reals.
- `Text.LowerStr`: folds ASCII letters only. `toLowerCase` folds every Unicode letter, so the search's case-insensitivity is proved for ASCII text only.
- Rate cookies are held already parsed. A malformed rate cookie is not modelled: its `JSON.parse` would throw into the backend rung, or out of `getExchangeRate` in the last rung.
- The currency selector's cookies expire after 24 hours; that expiry is not modelled either, so `CurrencyContext.SelectedCurrencySurvivesRefresh` holds while the cookies are still present.
- Cookie expiry is not modelled. The jar is whatever the browser still exposes. The browser deletes a rate cookie when it expires, and that is the same 12 hours after it was written. So in a real browser the stale-cookie rung almost never finds a cookie.
- A success body without a rate is not modelled: neither the exchange-rate service's body without `conversion_rate` (src/utils/convertCurrency.ts:43, server/server.js:70) nor the backend's body without `rate`. In the program `undefined` is then cached and returned as the rate; here every rate is a number.
- Query parameters given more than once are not modelled.
- Airtable records missing scalar columns are not modelled: name, price, category, description and stock are assumed present.
- `CURRENCY_CONFIGS` lookups of inherited object keys such as `constructor` are not modelled. Only the 33 own entries are.
- The geolocation request: a body that fails to parse is treated like an unreachable service. Both end in the catch block.
- The Stripe payment-intent pass-through (server/server.js:14-26), and Stripe, EmailJS and Firebase themselves, are foreign services. Only their outcomes appear, as parameters of `Checkout.HandleSubmit`.
- The form's `handleChange` and the disabled state of the submit button are not modelled. Neither is the duplicate order summary in the `Checkout` page component.
- React's asynchronous state batching is not modelled. Each update is one atomic pure function. Concurrent loads of the currency context are not interleaved.
- The search context's plain setters (`setSearchQuery`, `setSearchResults`, `setIsSearching`) are not modelled. Neither are the hooks' "used outside provider" errors.

## Findings

| source | as written | input that shows it | evidently intended | confidence | as-written member | corrected member |
|---|---|---|---|---|---|---|
| src/pages/Cart.tsx:37-41 | the "-", "+" and "Remove" buttons call `updateQuantity(id, q)` and `removeFromCart(id)` without the line's size, and the reducer matches the size with `===` | a cart holding one line of a product with size "M" and quantity 2: "+" leaves it at 2 and "Remove" keeps it | pass `item.selectedSize`, so the buttons act on the line they belong to | high that the calls ignore sized lines; the bug is latent, since no page calls `addToCart` (the "ADD TO CART" button of src/pages/ProductDetail.tsx:90 has no handler), so a sized line can only come from a cart saved in `localStorage` (not executed) | `CartPage.PressAsWritten`, `CartPage.SizedButtonsExample` | `CartPage.PressCorrected` |
| src/components/CartSidebar.tsx:49-55 | the sidebar's buttons make the same size-less calls | the same cart | the same | high, latent for the same reason (not executed) | `CartPage.SizedButtonsDoNothing` | `CartPage.PressCorrected` |

=== FILE: airtable.dfy ===
/** The product record codec of `src/utils/airtable.ts`: how an Airtable
    record becomes a `Product`, how a `Product` (or a partial one) becomes
    the `fields` object sent back, and how a failed response becomes an
    error message. The HTTP calls themselves are replaced by their outcomes. */
module Airtable {
  import opened Js
  import Seqs

  /** A catalogue product, as the storefront holds it. Prices are in CAD. */
  datatype Product = Product(
    id: string,
    name: string,
    price: real,
    category: string,
    description: string,
    stock: int,
    imageUrls: seq<string>,
    sizes: Option<seq<string>>)

  /** An Airtable attachment object; every level may be missing, which the
      source reads with optional chaining (`img?.thumbnails?.large?.url`). */
  datatype Thumbnail = Thumbnail(url: Option<string>)
  datatype Thumbnails = Thumbnails(large: Option<Thumbnail>, full: Option<Thumbnail>)
  datatype Attachment = Attachment(url: Option<string>, thumbnails: Option<Thumbnails>)

  /** The `fields` of a record as Airtable returns it. The scalar columns are
      taken to be present; `Image` and `Size` may be absent. */
  datatype RecordFields = RecordFields(
    name: string,
    price: real,
    category: string,
    description: string,
    stock: int,
    image: Option<seq<Option<Attachment>>>,
    size: Option<seq<string>>)

  datatype Record = Record(id: string, fields: RecordFields)

  /** The `fields` object of a create or update request: a property is present
      exactly when it is `Some`. */
  datatype WriteFields = WriteFields(
    name: Option<string>,
    price: Option<real>,
    category: Option<string>,
    description: Option<string>,
    stock: Option<int>,
    image: Option<seq<Attachment>>,
    size: Option<seq<string>>)

  /** `Partial<Product>`: the properties an update may leave undefined. */
  datatype ProductPatch = ProductPatch(
    name: Option<string>,
    price: Option<real>,
    category: Option<string>,
    description: Option<string>,
    stock: Option<int>,
    imageUrls: Option<seq<string>>,
    sizes: Option<seq<string>>)

  /** The body of a failed Airtable response: `{ error?: { message? } }`. */
  datatype ErrorBody = ErrorBody(error: Option<Option<string>>)

  const UnknownError := "Unknown error"

  // ---------------------------------------------------------------- decoding

  function ThumbUrl(t: Option<Thumbnail>): Option<string> {
    if t.Some? then t.value.url else None
  }

  /** `a?.thumbnails?.large?.url` */
  function LargeUrl(a: Attachment): Option<string> {
    if a.thumbnails.Some? then ThumbUrl(a.thumbnails.value.large) else None
  }

  /** `a?.thumbnails?.full?.url` */
  function FullUrl(a: Attachment): Option<string> {
    if a.thumbnails.Some? then ThumbUrl(a.thumbnails.value.full) else None
  }

  /** `img?.url || img?.thumbnails?.large?.url || img?.thumbnails?.full?.url || ''`:
      the first non-empty of the three, in that order, else "". */
  function AttachmentUrl(img: Option<Attachment>): (u: string)
    ensures img.Some? && Truthy(img.value.url) ==> u == img.value.url.value
    ensures img.Some? && !Truthy(img.value.url) && Truthy(LargeUrl(img.value)) ==> u == LargeUrl(img.value).value
    ensures img.Some? && !Truthy(img.value.url) && !Truthy(LargeUrl(img.value)) && Truthy(FullUrl(img.value))
            ==> u == FullUrl(img.value).value
    ensures img.Some? && !Truthy(img.value.url) && !Truthy(LargeUrl(img.value)) && !Truthy(FullUrl(img.value))
            ==> u == ""
    ensures img.None? ==> u == ""
    ensures u != "" && !(img.Some? && Truthy(img.value.url)) ==>
              img.Some? && img.value.thumbnails.Some?
              && (u == ThumbUrl(img.value.thumbnails.value.large).GetOr("")
                  || u == ThumbUrl(img.value.thumbnails.value.full).GetOr(""))
  {
    match img
    case None => ""
    case Some(a) => OrElse(a.url, OrElse(LargeUrl(a), OrElse(FullUrl(a), "")))
  }

  function AttachmentUrls(imgs: seq<Option<Attachment>>): (r: seq<string>)
    ensures |r| == |imgs|
    ensures forall i :: 0 <= i < |imgs| ==> r[i] == AttachmentUrl(imgs[i])
  {
    if |imgs| == 0 then [] else [AttachmentUrl(imgs[0])] + AttachmentUrls(imgs[1..])
  }

  predicate NonEmpty(s: string) { s != "" }

  /** The `imageUrls` of a decoded record: each attachment's best URL, with
      the empty ones dropped; no `Image` field gives no URLs. */
  function DecodeImages(image: Option<seq<Option<Attachment>>>): (urls: seq<string>)
    ensures image.None? ==> urls == []
    ensures forall i :: 0 <= i < |urls| ==> urls[i] != ""
    ensures image.Some? ==> Seqs.IsSubsequence(urls, AttachmentUrls(image.value))
    // Every non-empty URL is kept, as many times as it occurs.
    ensures image.Some? ==> forall u :: u != "" ==> multiset(urls)[u] == multiset(AttachmentUrls(image.value))[u]
  {
    match image
    case None => []
    case Some(imgs) =>
      Seqs.FilterIsSubsequence(AttachmentUrls(imgs), NonEmpty);
      Seqs.FilterCountsAll(AttachmentUrls(imgs), NonEmpty);
      Seqs.Filter(AttachmentUrls(imgs), NonEmpty)
  }

  /** The `Product` built from a record (the mapping repeated in
      `fetchProducts`, `addProduct` and `updateProduct`). */
  function DecodeRecord(rec: Record): (p: Product)
    ensures p.id == rec.id && p.name == rec.fields.name && p.price == rec.fields.price
    ensures p.category == rec.fields.category && p.description == rec.fields.description
    ensures p.stock == rec.fields.stock
    ensures p.sizes.Some?
    ensures rec.fields.size.None? ==> p.sizes == Some([])
    ensures rec.fields.size.Some? ==> p.sizes == rec.fields.size
    ensures p.imageUrls == DecodeImages(rec.fields.image)
  {
    Product(rec.id, rec.fields.name, rec.fields.price, rec.fields.category,
            rec.fields.description, rec.fields.stock,
            DecodeImages(rec.fields.image), Some(rec.fields.size.GetOr([])))
  }

  // ---------------------------------------------------------------- encoding

  /** `imageUrls.map(url => ({ url }))` */
  function EncodeImages(urls: seq<string>): (atts: seq<Attachment>)
    ensures |atts| == |urls|
    ensures forall i :: 0 <= i < |urls| ==> atts[i] == Attachment(Some(urls[i]), None)
  {
    if |urls| == 0 then [] else [Attachment(Some(urls[0]), None)] + EncodeImages(urls[1..])
  }

  /** The `fields` sent by `addProduct`: every column, `Size` defaulting to []. */
  function EncodeProduct(p: Product): (f: WriteFields)
    ensures f.name == Some(p.name) && f.price == Some(p.price) && f.category == Some(p.category)
    ensures f.description == Some(p.description) && f.stock == Some(p.stock)
    ensures f.image == Some(EncodeImages(p.imageUrls))
    ensures f.size == Some(p.sizes.GetOr([]))
    ensures Complete(f)
  {
    WriteFields(Some(p.name), Some(p.price), Some(p.category), Some(p.description),
                Some(p.stock), Some(EncodeImages(p.imageUrls)), Some(p.sizes.GetOr([])))
  }

  /** The `fields` sent by `updateProduct`: a column is present exactly when
      the patch defines the corresponding property. */
  function PatchFields(patch: ProductPatch): (f: WriteFields)
    ensures f.name.Some? <==> patch.name.Some?
    ensures f.price.Some? <==> patch.price.Some?
    ensures f.category.Some? <==> patch.category.Some?
    ensures f.description.Some? <==> patch.description.Some?
    ensures f.stock.Some? <==> patch.stock.Some?
    ensures f.image.Some? <==> patch.imageUrls.Some?
    ensures f.size.Some? <==> patch.sizes.Some?
    ensures f.name == patch.name && f.price == patch.price && f.category == patch.category
    ensures f.description == patch.description && f.stock == patch.stock && f.size == patch.sizes
    ensures patch.imageUrls.Some? ==> f.image == Some(EncodeImages(patch.imageUrls.value))
    ensures patch == EmptyPatch ==> f == NoFields
  {
    WriteFields(patch.name, patch.price, patch.category, patch.description, patch.stock,
                if patch.imageUrls.Some? then Some(EncodeImages(patch.imageUrls.value)) else None,
                patch.sizes)
  }

  const EmptyPatch := ProductPatch(None, None, None, None, None, None, None)
  const NoFields := WriteFields(None, None, None, None, None, None, None)

  /** A patch of every property of a product sends the same fields as
      creating it, except that undefined sizes stay undefined. */
  lemma FullPatchMatchesCreate(p: Product)
    requires p.sizes.Some?
    ensures PatchFields(ProductPatch(Some(p.name), Some(p.price), Some(p.category),
                                     Some(p.description), Some(p.stock), Some(p.imageUrls), p.sizes))
            == EncodeProduct(p)
  {
  }

  /** A fields object that defines every column, as `addProduct` sends. */
  predicate Complete(f: WriteFields) {
    f.name.Some? && f.price.Some? && f.category.Some? && f.description.Some?
    && f.stock.Some? && f.image.Some? && f.size.Some?
  }

  /** The record fields Airtable stores for a complete fields object, with
      each attachment echoed as it was sent. */
  function Echo(f: WriteFields): RecordFields
    requires Complete(f)
  {
    RecordFields(f.name.value, f.price.value, f.category.value, f.description.value,
                 f.stock.value, Some(Wrap(f.image.value)), f.size)
  }

  function Wrap(atts: seq<Attachment>): (r: seq<Option<Attachment>>)
    ensures |r| == |atts|
    ensures forall i :: 0 <= i < |atts| ==> r[i] == Some(atts[i])
  {
    if |atts| == 0 then [] else [Some(atts[0])] + Wrap(atts[1..])
  }

  /** Round trip: decoding what `addProduct` encodes gives back the product,
      except that empty image URLs disappear (in order) and undefined sizes
      become []. */
  lemma {:induction false} RoundTrip(p: Product)
    ensures Complete(EncodeProduct(p))
    ensures DecodeRecord(Record(p.id, Echo(EncodeProduct(p))))
            == p.(imageUrls := Seqs.Filter(p.imageUrls, NonEmpty), sizes := Some(p.sizes.GetOr([])))
  {
    var imgs := Wrap(EncodeImages(p.imageUrls));
    assert AttachmentUrls(imgs) == p.imageUrls by {
      forall i | 0 <= i < |p.imageUrls| ensures AttachmentUrls(imgs)[i] == p.imageUrls[i] {
        if p.imageUrls[i] != "" {
          assert Truthy(imgs[i].value.url);
        }
      }
    }
  }

  // ---------------------------------------------------------------- errors

  /** `Airtable error: ${errorData.error?.message || 'Unknown error'}` */
  function ErrorMessage(body: ErrorBody): (msg: string)
    ensures body.error.Some? && Truthy(body.error.value) ==> msg == "Airtable error: " + body.error.value.value
    ensures !(body.error.Some? && Truthy(body.error.value)) ==> msg == "Airtable error: " + UnknownError
  {
    "Airtable error: " + OrElse(if body.error.Some? then body.error.value else None, UnknownError)
  }

  /** How a request ends once awaited: `fetch` itself or a `response.json()`
      the code awaits rejects (network failure, a body that is not JSON),
      a non-ok response whose body is read as an error, or an ok one
      carrying the parsed value. */
  datatype Reply<T> = Thrown(message: string) | Rejected(errorBody: ErrorBody) | Accepted(value: T)

  /** Why an operation failed: a rejection passed on unchanged by the
      `catch` block, the shaped Airtable message, or a body without records. */
  datatype Failure = Rethrown(message: string) | Shaped(message: string) | NoRecordList
  datatype Result<T> = Success(value: T) | Fail(failure: Failure)

  /** `addProduct` / `updateProduct` once the request is sent: a rejection
      is rethrown as it is, a non-ok response becomes the shaped error, and
      an ok one is decoded. */
  function WriteOutcome(response: Reply<Record>): (r: Result<Product>)
    ensures r.Success? <==> response.Accepted?
    ensures response.Thrown? ==> r == Fail(Rethrown(response.message))
    ensures response.Rejected? ==> r == Fail(Shaped(ErrorMessage(response.errorBody)))
    ensures response.Accepted? ==> r == Success(DecodeRecord(response.value))
  {
    match response
    case Thrown(m) => Fail(Rethrown(m))
    case Rejected(e) => Fail(Shaped(ErrorMessage(e)))
    case Accepted(rec) => Success(DecodeRecord(rec))
  }

  /** `deleteProduct`: the body of an ok response is not read; a non-ok one
      is an error. */
  function DeleteOutcome(response: Reply<()>): (r: Result<()>)
    ensures r.Success? <==> response.Accepted?
    ensures response.Thrown? ==> r == Fail(Rethrown(response.message))
    ensures response.Rejected? ==> r == Fail(Shaped(ErrorMessage(response.errorBody)))
  {
    match response
    case Thrown(m) => Fail(Rethrown(m))
    case Rejected(e) => Fail(Shaped(ErrorMessage(e)))
    case Accepted(_) => Success(())
  }

  /** `fetchProducts`: the response status is not inspected, so any parsed
      body is used, and one without a `records` list (an Airtable error
      body among them) makes `data.records.map` throw. A rejection is
      rethrown as it is. */
  function FetchProducts(response: Reply<Option<seq<Record>>>): (r: Result<seq<Product>>)
    ensures response.Thrown? ==> r == Fail(Rethrown(response.message))
    ensures response.Rejected? || (response.Accepted? && response.value.None?) ==> r == Fail(NoRecordList)
    ensures r.Success? <==> response.Accepted? && response.value.Some?
    ensures r.Success? ==> |r.value| == |response.value.value|
    ensures r.Success? ==> forall i :: 0 <= i < |r.value| ==> r.value[i] == DecodeRecord(response.value.value[i])
  {
    match response
    case Thrown(m) => Fail(Rethrown(m))
    case Rejected(_) => Fail(NoRecordList)
    case Accepted(None) => Fail(NoRecordList)
    case Accepted(Some(recs)) => Success(DecodeAll(recs))
  }

  function DecodeAll(recs: seq<Record>): (ps: seq<Product>)
    ensures |ps| == |recs|
    ensures forall i :: 0 <= i < |recs| ==> ps[i] == DecodeRecord(recs[i])
  {
    if |recs| == 0 then [] else [DecodeRecord(recs[0])] + DecodeAll(recs[1..])
  }

  // ------------------------------------------------------------ partners

  /** `addProduct` answers with the product it was given, under the id
      Airtable assigns (`p.id` is never sent), once Airtable has echoed the
      fields: empty image URLs dropped, undefined sizes as []. */
  lemma AddProductReturnsProduct(p: Product, newId: string)
    ensures Complete(EncodeProduct(p))
    ensures WriteOutcome(Accepted(Record(newId, Echo(EncodeProduct(p)))))
            == Success(p.(id := newId, imageUrls := Seqs.Filter(p.imageUrls, NonEmpty), sizes := Some(p.sizes.GetOr([]))))
  {
    RoundTrip(p);
    RoundTrip(p.(id := newId));
  }

  /** Distinct non-empty Airtable messages give distinct shaped messages, so
      the detail can be read back from the shaped one. */
  lemma ShapedMessageInjective(a: string, b: string)
    requires a != "" && b != ""
    requires ErrorMessage(ErrorBody(Some(Some(a)))) == ErrorMessage(ErrorBody(Some(Some(b))))
    ensures a == b
  {
    var prefix := "Airtable error: ";
    assert (prefix + a)[|prefix|..] == a;
    assert (prefix + b)[|prefix|..] == b;
  }
}

=== FILE: cart.dfy ===
/** The cart reducer of `src/context/CartContext.tsx`: an ordered list of
    lines keyed by (product id, selected size), the four updates the
    provider exposes, and the two totals it derives. Each update is the pure
    function React applies to the previous line list. */
module Cart {
  import opened Js
  import opened Airtable
  import Seqs

  /** One cart line. `selectedSize` may be undefined, and undefined is a key
      of its own: it matches only lines whose size is undefined too. */
  datatype Line = Line(product: Product, quantity: int, selectedSize: Option<string>)

  type Lines = seq<Line>

  /** `item.product.id === productId && item.selectedSize === selectedSize` */
  predicate Matches(l: Line, id: string, size: Option<string>) {
    l.product.id == id && l.selectedSize == size
  }

  predicate HasKey(cart: Lines, id: string, size: Option<string>) {
    exists i :: 0 <= i < |cart| && Matches(cart[i], id, size)
  }

  /** No two lines share a (product id, size) key. */
  predicate UniqueKeys(cart: Lines) {
    forall i, j :: 0 <= i < j < |cart| ==>
      !Matches(cart[j], cart[i].product.id, cart[i].selectedSize)
  }

  predicate PositiveQuantities(cart: Lines) {
    forall i :: 0 <= i < |cart| ==> cart[i].quantity >= 1
  }

  /** The invariant every reachable cart satisfies. */
  predicate Valid(cart: Lines) {
    UniqueKeys(cart) && PositiveQuantities(cart)
  }

  // ------------------------------------------------------------- operations

  /** `addToCart(product, selectedSize)`: a line with the same key gets one
      more unit and keeps its own product snapshot; otherwise a new line
      with quantity 1 is appended. */
  function AddToCart(cart: Lines, product: Product, size: Option<string>): (r: Lines)
    ensures HasKey(cart, product.id, size) ==>
              |r| == |cart|
              && forall i :: 0 <= i < |cart| ==>
                   if Matches(cart[i], product.id, size)
                   then r[i] == cart[i].(quantity := cart[i].quantity + 1)
                   else r[i] == cart[i]
    ensures !HasKey(cart, product.id, size) ==> r == cart + [Line(product, 1, size)]
    ensures HasKey(r, product.id, size)
    ensures Valid(cart) ==> Valid(r)
  {
    if HasKey(cart, product.id, size) then
      var r := seq(|cart|, i requires 0 <= i < |cart| =>
                 if Matches(cart[i], product.id, size) then cart[i].(quantity := cart[i].quantity + 1)
                 else cart[i]);
      var k :| 0 <= k < |cart| && Matches(cart[k], product.id, size);
      assert Matches(r[k], product.id, size);
      r
    else
      var r := cart + [Line(product, 1, size)];
      assert Matches(r[|cart|], product.id, size);
      r
  }

  /** The test `removeFromCart` filters with: the line does not match. */
  function Keeper(id: string, size: Option<string>): Line -> bool {
    (l: Line) => !Matches(l, id, size)
  }

  /** `removeFromCart(productId, selectedSize)`: drops every line with that
      key and keeps the others in order. */
  function RemoveFromCart(cart: Lines, id: string, size: Option<string>): (r: Lines)
    ensures forall i :: 0 <= i < |r| ==> !Matches(r[i], id, size) && r[i] in cart
    ensures forall i :: 0 <= i < |cart| && !Matches(cart[i], id, size) ==> cart[i] in r
    ensures Seqs.IsSubsequence(r, cart)
    // Every other line is kept as many times as it occurs, even in a cart
    // that repeats a line.
    ensures forall l :: !Matches(l, id, size) ==> multiset(r)[l] == multiset(cart)[l]
    ensures !HasKey(cart, id, size) ==> r == cart
    ensures Valid(cart) ==> Valid(r)
  {
    var keep := Keeper(id, size);
    Seqs.FilterIsSubsequence(cart, keep);
    Seqs.FilterCountsAll(cart, keep);
    FilterAbsentKey(cart, id, size);
    FilterKeepsUnique(cart, keep);
    Seqs.Filter(cart, keep)
  }

  lemma FilterAbsentKey(cart: Lines, id: string, size: Option<string>)
    ensures !HasKey(cart, id, size) ==> Seqs.Filter(cart, Keeper(id, size)) == cart
  {
    if !HasKey(cart, id, size) {
      Seqs.FilterAllPass(cart, Keeper(id, size));
    }
  }

  lemma {:induction false} FilterKeepsUnique(cart: Lines, p: Line -> bool)
    ensures UniqueKeys(cart) ==> UniqueKeys(Seqs.Filter(cart, p))
  {
    if |cart| > 0 && UniqueKeys(cart) {
      var tail := cart[1..];
      TailUnique(cart);
      FilterKeepsUnique(tail, p);
      if p(cart[0]) {
        var id, size := cart[0].product.id, cart[0].selectedSize;
        HeadFreeInTail(cart);
        FilterKeepsFree(tail, p, id, size);
        ConsUnique(cart[0], Seqs.Filter(tail, p));
      }
    }
  }

  lemma TailUnique(cart: Lines)
    requires |cart| > 0 && UniqueKeys(cart)
    ensures UniqueKeys(cart[1..])
  {
    var tail := cart[1..];
    forall i, j | 0 <= i < j < |tail|
      ensures !Matches(tail[j], tail[i].product.id, tail[i].selectedSize)
    {
      assert tail[i] == cart[i + 1] && tail[j] == cart[j + 1];
    }
  }

  lemma HeadFreeInTail(cart: Lines)
    requires |cart| > 0 && UniqueKeys(cart)
    ensures forall k :: 0 <= k < |cart[1..]| ==>
              !Matches(cart[1..][k], cart[0].product.id, cart[0].selectedSize)
  {
    forall k | 0 <= k < |cart[1..]| ensures !Matches(cart[1..][k], cart[0].product.id, cart[0].selectedSize) {
      assert cart[1..][k] == cart[k + 1];
    }
  }

  lemma FilterKeepsFree(s: Lines, p: Line -> bool, id: string, size: Option<string>)
    requires forall k :: 0 <= k < |s| ==> !Matches(s[k], id, size)
    ensures forall k :: 0 <= k < |Seqs.Filter(s, p)| ==> !Matches(Seqs.Filter(s, p)[k], id, size)
  {
    var r := Seqs.Filter(s, p);
    forall k | 0 <= k < |r| ensures !Matches(r[k], id, size) {
      assert r[k] in s;
    }
  }

  lemma ConsUnique(x: Line, s: Lines)
    requires UniqueKeys(s)
    requires forall k :: 0 <= k < |s| ==> !Matches(s[k], x.product.id, x.selectedSize)
    ensures UniqueKeys([x] + s)
  {
    var r := [x] + s;
    forall i, j | 0 <= i < j < |r|
      ensures !Matches(r[j], r[i].product.id, r[i].selectedSize)
    {
      assert r[j] == s[j - 1];
      if i > 0 {
        assert r[i] == s[i - 1];
      }
    }
  }

  /** `updateQuantity(productId, quantity, selectedSize)`: a quantity below 1
      is ignored; otherwise every line with the key takes the new quantity. */
  function UpdateQuantity(cart: Lines, id: string, quantity: int, size: Option<string>): (r: Lines)
    ensures quantity < 1 ==> r == cart
    ensures quantity >= 1 ==>
              |r| == |cart|
              && forall i :: 0 <= i < |cart| ==>
                   if Matches(cart[i], id, size) then r[i] == cart[i].(quantity := quantity)
                   else r[i] == cart[i]
    ensures Valid(cart) ==> Valid(r)
  {
    if quantity < 1 then cart
    else
      seq(|cart|, i requires 0 <= i < |cart| =>
        if Matches(cart[i], id, size) then cart[i].(quantity := quantity) else cart[i])
  }

  /** `clearCart()` */
  function ClearCart(): (r: Lines)
    ensures r == [] && Valid(r)
    ensures TotalItems(r) == 0 && TotalPrice(r) == 0.0
  {
    []
  }

  // ----------------------------------------------------------------- totals

  function LineQuantity(l: Line): int { l.quantity }

  function LineAmount(l: Line): real { l.product.price * l.quantity as real }

  /** `cartItems.reduce((total, item) => total + item.quantity, 0)`: the
      sum of the quantities, which is what the left-to-right fold from 0
      computes. */
  function TotalItems(cart: Lines): (t: int)
    ensures t == Seqs.FoldLeftInt(cart, LineQuantity, 0)
    ensures cart == [] ==> t == 0
  {
    Seqs.SumIntIsFoldLeft(cart, LineQuantity, 0);
    Seqs.SumInt(cart, LineQuantity)
  }

  /** `cartItems.reduce((total, item) => total + item.product.price * item.quantity, 0)`:
      the sum of the line amounts, as the left-to-right fold from 0
      computes it. */
  function TotalPrice(cart: Lines): (t: real)
    ensures t == Seqs.FoldLeftReal(cart, LineAmount, 0.0)
    ensures cart == [] ==> t == 0.0
  {
    Seqs.SumRealIsFoldLeft(cart, LineAmount, 0.0);
    Seqs.SumReal(cart, LineAmount)
  }

  /** With positive quantities there are at least as many items as lines. */
  lemma {:induction false} ItemsAtLeastLines(cart: Lines)
    requires PositiveQuantities(cart)
    ensures TotalItems(cart) >= |cart|
  {
    if |cart| > 0 {
      ItemsAtLeastLines(cart[1..]);
    }
  }

  // ---------------------------------------------------------------- lemmas

  /** In a cart with unique keys at most one line matches a key. */
  lemma OnlyMatch(cart: Lines, k: nat, id: string, size: Option<string>)
    requires UniqueKeys(cart) && k < |cart| && Matches(cart[k], id, size)
    ensures forall i :: 0 <= i < |cart| && i != k ==> !Matches(cart[i], id, size)
  {
    forall i | 0 <= i < |cart| && i != k ensures !Matches(cart[i], id, size) {
      if i < k {
        assert !Matches(cart[k], cart[i].product.id, cart[i].selectedSize);
      } else {
        assert !Matches(cart[i], cart[k].product.id, cart[k].selectedSize);
      }
    }
  }

  /** Adding a present key is a single-line update of that line. */
  lemma AddPresentIsPointUpdate(cart: Lines, k: nat, product: Product, size: Option<string>)
    requires Valid(cart) && k < |cart| && Matches(cart[k], product.id, size)
    ensures AddToCart(cart, product, size) == cart[k := cart[k].(quantity := cart[k].quantity + 1)]
  {
    OnlyMatch(cart, k, product.id, size);
  }

  /** Adding a key already in a valid cart raises the item count by one
      and the price total by the price of that line's own product snapshot
      (the one stored when the line was first added, not the one passed now). */
  lemma AddPresentTotals(cart: Lines, k: nat, product: Product, size: Option<string>)
    requires Valid(cart) && k < |cart| && Matches(cart[k], product.id, size)
    ensures TotalItems(AddToCart(cart, product, size)) == TotalItems(cart) + 1
    ensures TotalPrice(AddToCart(cart, product, size)) == TotalPrice(cart) + cart[k].product.price
  {
    var l := cart[k].(quantity := cart[k].quantity + 1);
    AddPresentIsPointUpdate(cart, k, product, size);
    PointUpdateTotals(cart, k, l);
  }

  /** Replacing line `k` moves both totals by the difference of the two lines. */
  lemma PointUpdateTotals(cart: Lines, k: nat, l: Line)
    requires k < |cart|
    ensures TotalItems(cart[k := l]) == TotalItems(cart) - cart[k].quantity + l.quantity
    ensures TotalPrice(cart[k := l]) == TotalPrice(cart) - LineAmount(cart[k]) + LineAmount(l)
  {
    Seqs.SumIntUpdate(cart, k, l, LineQuantity);
    Seqs.SumRealUpdate(cart, k, l, LineAmount);
  }

  /** Adding a new key raises the item count by one and the price total by
      the product's price. */
  lemma AddAbsentTotals(cart: Lines, product: Product, size: Option<string>)
    requires !HasKey(cart, product.id, size)
    ensures TotalItems(AddToCart(cart, product, size)) == TotalItems(cart) + 1
    ensures TotalPrice(AddToCart(cart, product, size)) == TotalPrice(cart) + product.price
  {
    var l := Line(product, 1, size);
    Seqs.SumIntAppend(cart, l, LineQuantity);
    Seqs.SumRealAppend(cart, l, LineAmount);
  }

  /** Setting the quantity of a present key to `q >= 1` moves the item total
      from the old quantity to `q`. */
  lemma UpdateQuantityTotals(cart: Lines, k: nat, id: string, q: int, size: Option<string>)
    requires Valid(cart) && k < |cart| && Matches(cart[k], id, size) && q >= 1
    ensures TotalItems(UpdateQuantity(cart, id, q, size)) == TotalItems(cart) - cart[k].quantity + q
    ensures TotalPrice(UpdateQuantity(cart, id, q, size))
            == TotalPrice(cart) - LineAmount(cart[k]) + cart[k].product.price * q as real
  {
    OnlyMatch(cart, k, id, size);
    var l := cart[k].(quantity := q);
    assert UpdateQuantity(cart, id, q, size) == cart[k := l];
    PointUpdateTotals(cart, k, l);
  }

  /** Removing a present key from a valid cart deletes exactly that line. */
  lemma RemovePresentDeletesLine(cart: Lines, k: nat, id: string, size: Option<string>)
    requires Valid(cart) && k < |cart| && Matches(cart[k], id, size)
    ensures RemoveFromCart(cart, id, size) == cart[..k] + cart[k + 1..]
  {
    OnlyMatch(cart, k, id, size);
    Seqs.FilterDeletesSingle(cart, k, Keeper(id, size));
  }

  /** Removing a present key lowers the totals by exactly that line. */
  lemma RemovePresentTotals(cart: Lines, k: nat, id: string, size: Option<string>)
    requires Valid(cart) && k < |cart| && Matches(cart[k], id, size)
    ensures TotalItems(RemoveFromCart(cart, id, size)) == TotalItems(cart) - cart[k].quantity
    ensures TotalPrice(RemoveFromCart(cart, id, size)) == TotalPrice(cart) - LineAmount(cart[k])
  {
    RemovePresentDeletesLine(cart, k, id, size);
    Seqs.SumIntDelete(cart, k, LineQuantity);
    Seqs.SumRealDelete(cart, k, LineAmount);
  }

  /** Removing a key and then adding the same product back appends a fresh
      line with quantity 1 at the end. */
  lemma RemoveThenAdd(cart: Lines, product: Product, size: Option<string>)
    ensures AddToCart(RemoveFromCart(cart, product.id, size), product, size)
            == RemoveFromCart(cart, product.id, size) + [Line(product, 1, size)]
  {
  }

  /** Updates through an undefined size leave every sized line untouched. */
  lemma UndefinedSizeTouchesOnlyUnsized(cart: Lines, id: string, q: int)
    ensures forall i :: 0 <= i < |cart| && cart[i].selectedSize.Some? ==>
              UpdateQuantity(cart, id, q, None)[i] == cart[i]
    ensures forall i :: 0 <= i < |cart| && cart[i].selectedSize.Some? ==>
              cart[i] in RemoveFromCart(cart, id, None)
  {
  }
}

=== FILE: cart_page.dfy ===
/** The quantity and remove buttons that `src/pages/Cart.tsx` and
    `src/components/CartSidebar.tsx` show on every cart line, as calls into
    the cart reducer. As written, they pass the product id but no size; the
    corrected buttons pass the line's own size as well. */
module CartPage {
  import opened Js
  import opened Airtable
  import opened Cart

  datatype Button = Minus | Plus | Remove

  /** The reducer call a button on line `k` makes, with the size the caller
      passes. */
  function Press(cart: Lines, k: nat, b: Button, size: Option<string>): Lines
    requires k < |cart|
  {
    var l := cart[k];
    match b
    case Minus => UpdateQuantity(cart, l.product.id, l.quantity - 1, size)
    case Plus => UpdateQuantity(cart, l.product.id, l.quantity + 1, size)
    case Remove => RemoveFromCart(cart, l.product.id, size)
  }

  /** The buttons as written: the size argument is left out, so it is
      undefined. A line with a size is never changed or removed by its own
      buttons. */
  function PressAsWritten(cart: Lines, k: nat, b: Button): (r: Lines)
    requires k < |cart|
    ensures cart[k].selectedSize.Some? && b != Remove ==> |r| == |cart| && r[k] == cart[k]
    ensures cart[k].selectedSize.Some? ==> cart[k] in r
  {
    UnsizedPressKeepsSizedLine(cart, k, b);
    Press(cart, k, b, None)
  }

  lemma UnsizedPressKeepsSizedLine(cart: Lines, k: nat, b: Button)
    requires k < |cart|
    ensures var r := Press(cart, k, b, None);
            (cart[k].selectedSize.Some? && b != Remove ==> |r| == |cart| && r[k] == cart[k])
            && (cart[k].selectedSize.Some? ==> cart[k] in r)
  {
    var l := cart[k];
    match b
    case Minus =>
      UndefinedSizeTouchesOnlyUnsized(cart, l.product.id, l.quantity - 1);
    case Plus =>
      UndefinedSizeTouchesOnlyUnsized(cart, l.product.id, l.quantity + 1);
    case Remove =>
      UndefinedSizeTouchesOnlyUnsized(cart, l.product.id, 0);
  }

  /** When every line of the product has a size, as for any product sold in
      sizes, all three buttons leave the whole cart as it was. */
  lemma SizedButtonsDoNothing(cart: Lines, k: nat, b: Button)
    requires k < |cart|
    requires forall i :: 0 <= i < |cart| && cart[i].product.id == cart[k].product.id ==> cart[i].selectedSize.Some?
    ensures PressAsWritten(cart, k, b) == cart
  {
    assert !HasKey(cart, cart[k].product.id, None);
  }

  /** A concrete cart: one line of a sized product, quantity 2, size "M".
      Pressing "+" leaves the quantity at 2 and "Remove" keeps the line. */
  lemma SizedButtonsExample(p: Product)
    ensures var cart := [Line(p, 2, Some("M"))];
            PressAsWritten(cart, 0, Plus) == cart && PressAsWritten(cart, 0, Remove) == cart
  {
    SizedButtonsDoNothing([Line(p, 2, Some("M"))], 0, Plus);
    SizedButtonsDoNothing([Line(p, 2, Some("M"))], 0, Remove);
  }

  /** The corrected buttons: the line's own size is passed. */
  function PressCorrected(cart: Lines, k: nat, b: Button): (r: Lines)
    requires Valid(cart) && k < |cart|
    ensures b == Plus ==> r == cart[k := cart[k].(quantity := cart[k].quantity + 1)]
    ensures b == Minus && cart[k].quantity > 1 ==> r == cart[k := cart[k].(quantity := cart[k].quantity - 1)]
    ensures b == Minus && cart[k].quantity <= 1 ==> r == cart
    ensures b == Remove ==> r == cart[..k] + cart[k + 1..]
    ensures Valid(r)
  {
    SizedPressTouchesOwnLine(cart, k, b);
    Press(cart, k, b, cart[k].selectedSize)
  }

  lemma SizedPressTouchesOwnLine(cart: Lines, k: nat, b: Button)
    requires Valid(cart) && k < |cart|
    ensures var r := Press(cart, k, b, cart[k].selectedSize);
            (b == Plus ==> r == cart[k := cart[k].(quantity := cart[k].quantity + 1)])
            && (b == Minus && cart[k].quantity > 1 ==> r == cart[k := cart[k].(quantity := cart[k].quantity - 1)])
            && (b == Minus && cart[k].quantity <= 1 ==> r == cart)
            && (b == Remove ==> r == cart[..k] + cart[k + 1..])
            && Valid(r)
  {
    var l := cart[k];
    match b
    case Minus =>
      OnlyMatch(cart, k, l.product.id, l.selectedSize);
    case Plus =>
      OnlyMatch(cart, k, l.product.id, l.selectedSize);
    case Remove =>
      RemovePresentDeletesLine(cart, k, l.product.id, l.selectedSize);
  }
}

=== FILE: checkout.dfy ===
/** `CheckoutForm` of `src/pages/Checkout.tsx`: the order summary derived
    from the cart, and `handleSubmit` as a linear sequence of steps (payment
    secret, card confirmation, status check, order e-mail). Each external
    step's outcome is a parameter; the submission returns the component's
    final state and the requests it made, in order. */
module Checkout {
  import opened Js
  import opened Text
  import opened Airtable
  import opened Cart

  // --------------------------------------------------------- order summary

  datatype SummaryItem = SummaryItem(name: string, price: real, qty: int)

  datatype OrderSummary = OrderSummary(items: seq<SummaryItem>, subtotal: real, shipping: real,
                                       total: real, currency: string)

  /** A line's display name: the product name, followed by the size in
      parentheses when the line has a non-empty size. */
  function ItemName(l: Line): (n: string)
    ensures |l.product.name| <= |n| && n[..|l.product.name|] == l.product.name
    ensures n == l.product.name <==> !Truthy(l.selectedSize)
    ensures Truthy(l.selectedSize) ==> n == l.product.name + " (Size: " + l.selectedSize.value + ")"
  {
    if Truthy(l.selectedSize) then
      var n := l.product.name + " (Size: " + l.selectedSize.value + ")";
      assert |n| > |l.product.name|;
      n
    else l.product.name
  }

  /** `orderSummary`: one item per cart line, in order; free shipping; the
      cart's total price as both subtotal and total; always CAD. */
  function Summary(cart: Lines): (s: OrderSummary)
    ensures |s.items| == |cart|
    ensures forall i :: 0 <= i < |cart| ==>
              s.items[i] == SummaryItem(ItemName(cart[i]), cart[i].product.price, cart[i].quantity)
    ensures s.shipping == 0.0 && s.currency == "CAD"
    ensures s.subtotal == s.total == TotalPrice(cart)
  {
    OrderSummary(seq(|cart|, i requires 0 <= i < |cart| => SummaryItem(ItemName(cart[i]), cart[i].product.price, cart[i].quantity)),
                 TotalPrice(cart), 0.0, TotalPrice(cart), "CAD")
  }

  /** `Math.round(total * 100)`: the nearest whole number of cents, halves
      rounded up. */
  function Cents(total: real): (c: int)
    ensures c as real - 0.5 <= total * 100.0 < c as real + 0.5
  {
    (total * 100.0 + 0.5).Floor
  }

  /** One line of the e-mail's order text: `${qty}x ${name}`. */
  function OrderLine(item: SummaryItem): string {
    IntToString(item.qty) + "x " + item.name
  }

  /** The e-mail's order text: the order lines joined with ", ". No items
      give "", and otherwise the text starts with the first item's line and
      is exactly that line for a single item. */
  function OrderText(items: seq<SummaryItem>): (t: string)
    ensures items == [] ==> t == ""
    ensures |items| == 1 ==> t == OrderLine(items[0])
    ensures |items| >= 1 ==> |OrderLine(items[0])| <= |t| && t[..|OrderLine(items[0])|] == OrderLine(items[0])
  {
    var lines := seq(|items|, i requires 0 <= i < |items| => OrderLine(items[i]));
    var t := Join(lines, ", ");
    if |items| >= 2 then
      assert t == lines[0] + ", " + Join(lines[1..], ", ");
      assert t[..|lines[0]|] == lines[0];
      t
    else t
  }

  // ----------------------------------------------------------- the submit

  /** The form fields, which also serve as the card's billing details. */
  datatype Form = Form(name: string, email: string, phone: string, address: string,
                       city: string, country: string, postal: string)

  datatype EmailParams = EmailParams(name: string, email: string, phone: string,
                                     address: string, order: string, total: real)

  /** The requests `handleSubmit` makes, in the order it makes them. */
  datatype Effect =
    | RequestIntent(amount: int, currency: string)
    | ConfirmCard(clientSecret: string, billing: Form)
    | SendEmail(params: EmailParams)

  /** The payment-intent request: it rejects (network failure, unreadable
      body) with an optional message, or yields a body whose `clientSecret`
      may be missing. The HTTP status is not inspected. */
  datatype IntentReply = IntentRejected(message: Option<string>) | IntentBody(clientSecret: Option<string>)

  /** The card confirmation: no gateway object (so no call), a rejected
      call, a result carrying an error, or a result with a payment intent
      whose status may be missing. */
  datatype PaymentReply =
    | NoGateway
    | PaymentRejected(message: Option<string>)
    | GatewayError(message: Option<string>)
    | PaymentIntent(status: Option<string>)

  /** The order e-mail: sent, or rejected with an optional `message`. */
  datatype EmailReply = EmailSent | EmailRejected(message: Option<string>)

  datatype CheckoutState = CheckoutState(loading: bool, error: Option<string>, success: bool)

  const InitialCheckout := CheckoutState(false, None, false)

  datatype Submission = Submission(state: CheckoutState, effects: seq<Effect>)

  const NoSecret := "Failed to get payment secret"
  const NoCard := "Card element not found"
  const NotSucceeded := "Payment not successful"
  const FallbackError := "Payment failed"

  /** The e-mail's template parameters. */
  function EmailFor(form: Form, summary: OrderSummary): EmailParams {
    EmailParams(form.name, form.email, form.phone,
                form.address + ", " + form.city + ", " + form.country + ", " + form.postal,
                OrderText(summary.items), summary.total)
  }

  /** The three preconditions of the card confirmation being made. */
  predicate ReachesConfirm(intent: IntentReply, cardMounted: bool, payment: PaymentReply) {
    intent.IntentBody? && Truthy(intent.clientSecret) && cardMounted && !payment.NoGateway?
  }

  /** The payment is confirmed as succeeded. */
  predicate PaymentConfirmed(intent: IntentReply, cardMounted: bool, payment: PaymentReply) {
    ReachesConfirm(intent, cardMounted, payment) && payment == PaymentIntent(Some("succeeded"))
  }

  /** Every step succeeded, the e-mail included. */
  predicate Completed(intent: IntentReply, cardMounted: bool, payment: PaymentReply, email: EmailReply) {
    PaymentConfirmed(intent, cardMounted, payment) && email.EmailSent?
  }

  /** The `catch` block: `err.message || 'Payment failed'`, loading over,
      success left as it was. */
  function Fail(prior: CheckoutState, effects: seq<Effect>, message: Option<string>): (r: Submission)
    ensures r.state.error.Some? && r.state.error.value != ""
    ensures Truthy(message) ==> r.state.error == message
    ensures !Truthy(message) ==> r.state.error == Some(FallbackError)
    ensures !r.state.loading && r.state.success == prior.success && r.effects == effects
  {
    Submission(CheckoutState(false, Some(OrElse(message, FallbackError)), prior.success), effects)
  }

  /** `handleSubmit`: `prior` is the component state before the submit;
      the cart is only read. */
  function HandleSubmit(prior: CheckoutState, cart: Lines, form: Form, intent: IntentReply,
                        cardMounted: bool, payment: PaymentReply, email: EmailReply): (r: Submission)
    // Loading always ends, and any error shown is a non-empty message.
    ensures !r.state.loading
    ensures r.state.error.Some? ==> r.state.error.value != ""
    // The error is cleared exactly when every step succeeded; success is set
    // then and is never cleared.
    ensures r.state.error.None? <==> Completed(intent, cardMounted, payment, email)
    ensures r.state.success <==> prior.success || Completed(intent, cardMounted, payment, email)
    // Which message each failure shows.
    ensures intent.IntentRejected? ==> r.state.error == Some(OrElse(intent.message, FallbackError))
    ensures intent.IntentBody? && !Truthy(intent.clientSecret) ==> r.state.error == Some(NoSecret)
    ensures intent.IntentBody? && Truthy(intent.clientSecret) && !cardMounted ==> r.state.error == Some(NoCard)
    ensures ReachesConfirm(intent, cardMounted, payment) && (payment.PaymentRejected? || payment.GatewayError?)
            ==> r.state.error == Some(OrElse(payment.message, FallbackError))
    ensures intent.IntentBody? && Truthy(intent.clientSecret) && cardMounted && payment.NoGateway?
            ==> r.state.error == Some(NotSucceeded)
    ensures ReachesConfirm(intent, cardMounted, payment) && payment.PaymentIntent?
            && payment.status != Some("succeeded")
            ==> r.state.error == Some(NotSucceeded)
    ensures PaymentConfirmed(intent, cardMounted, payment) && email.EmailRejected?
            ==> r.state.error == Some(OrElse(email.message, FallbackError))
    // The first request is always the payment intent for the cart total in cents.
    ensures 1 <= |r.effects| <= 3
    ensures r.effects[0] == RequestIntent(Cents(TotalPrice(cart)), "cad")
    // The card is confirmed only with a secret and a mounted card element.
    ensures |r.effects| >= 2 <==> ReachesConfirm(intent, cardMounted, payment)
    ensures |r.effects| >= 2 ==> r.effects[1] == ConfirmCard(intent.clientSecret.value, form)
    // The e-mail is sent only after a succeeded payment.
    ensures |r.effects| == 3 <==> PaymentConfirmed(intent, cardMounted, payment)
    ensures |r.effects| == 3 ==> r.effects[2] == SendEmail(EmailFor(form, Summary(cart)))
  {
    var summary := Summary(cart);
    var request := RequestIntent(Cents(summary.total), "cad");
    match intent
    case IntentRejected(m) => Fail(prior, [request], m)
    case IntentBody(secret) =>
      if !Truthy(secret) then Fail(prior, [request], Some(NoSecret))
      else if !cardMounted then Fail(prior, [request], Some(NoCard))
      else
        var confirmed := [request, ConfirmCard(secret.value, form)];
        match payment
        case NoGateway => Fail(prior, [request], Some(NotSucceeded))
        case PaymentRejected(m) => Fail(prior, confirmed, m)
        case GatewayError(m) => Fail(prior, confirmed, m)
        case PaymentIntent(status) =>
          if status != Some("succeeded") then Fail(prior, confirmed, Some(NotSucceeded))
          else
            var sent := confirmed + [SendEmail(EmailFor(form, summary))];
            match email
            case EmailSent => Submission(CheckoutState(false, None, true), sent)
            case EmailRejected(m) => Fail(prior, sent, m)
  }

  // ---------------------------------------------------------------- lemmas

  /** The order text grows by one ", "-separated line per item. */
  lemma OrderTextAppend(items: seq<SummaryItem>, x: SummaryItem)
    requires |items| >= 1
    ensures OrderText(items + [x]) == OrderText(items) + ", " + OrderLine(x)
  {
    var lines := seq(|items|, i requires 0 <= i < |items| => OrderLine(items[i]));
    assert seq(|items + [x]|, i requires 0 <= i < |items + [x]| => OrderLine((items + [x])[i]))
           == lines + [OrderLine(x)];
    JoinAppend(lines, OrderLine(x), ", ");
  }

  /** The amount charged is the cart total in cents, to within half a cent,
      and an exact number of cents is charged exactly. */
  lemma ChargedAmountMatchesCart(cart: Lines, n: int)
    requires TotalPrice(cart) * 100.0 == n as real
    ensures Cents(TotalPrice(cart)) == n
  {
  }

  /** A missing secret stops before the card confirmation and the e-mail. */
  lemma MissingSecretStopsEarly(prior: CheckoutState, cart: Lines, form: Form, cardMounted: bool,
                                payment: PaymentReply, email: EmailReply)
    ensures var r := HandleSubmit(prior, cart, form, IntentBody(None), cardMounted, payment, email);
            r.state.error == Some(NoSecret) && |r.effects| == 1 && r.state.success == prior.success
  {
  }

  /** A gateway error message is shown as given, and no e-mail is sent. */
  lemma GatewayMessageShown(prior: CheckoutState, cart: Lines, form: Form, secret: string, m: string,
                            email: EmailReply)
    requires secret != "" && m != ""
    ensures var r := HandleSubmit(prior, cart, form, IntentBody(Some(secret)), true, GatewayError(Some(m)), email);
            r.state.error == Some(m) && |r.effects| == 2
  {
  }

  /** From the initial state, a failed e-mail after a succeeded payment
      leaves success false and shows an error, although the card was charged. */
  lemma EmailFailureAfterCharge(cart: Lines, form: Form, secret: string, m: Option<string>)
    requires secret != ""
    ensures var r := HandleSubmit(InitialCheckout, cart, form, IntentBody(Some(secret)), true,
                                  PaymentIntent(Some("succeeded")), EmailRejected(m));
            !r.state.success && r.state.error.Some? && |r.effects| == 3
  {
  }

  /** Success is sticky: a later failing submit leaves it set. */
  lemma SuccessIsSticky(cart: Lines, form: Form, intent: IntentReply, cardMounted: bool,
                        payment: PaymentReply, email: EmailReply)
    ensures HandleSubmit(CheckoutState(false, None, true), cart, form, intent, cardMounted, payment, email).state.success
  {
  }
}

=== FILE: currency_context.dfy ===
/** `CurrencyProvider` of `src/context/CurrencyContext.tsx`: the location
    state with its loading flag, the load that runs on mount and on
    `refreshCurrency`, and the manual `setCurrency`. */
module CurrencyContext {
  import opened Js
  import opened UserCurrency

  datatype CurrencyState = CurrencyState(location: Location, isLoading: bool)

  /** The state before the first load finishes: the Canadian default, loading. */
  const Initial := CurrencyState(DefaultLocation, true)

  /** `setCurrency(currency)`: both currency fields take the choice; the
      country fields and the loading flag stay. */
  function SetCurrency(s: CurrencyState, currency: string): (t: CurrencyState)
    ensures t.location.currency == currency && t.location.currencyCode == currency
    ensures t.location.country == s.location.country && t.location.countryCode == s.location.countryCode
    ensures t.isLoading == s.isLoading
  {
    s.(location := s.location.(currency := currency, currencyCode := currency))
  }

  /** `loadCurrencyData()` once its awaited call has settled: `None` when
      the call rejected, in which case the previous location is kept. Either
      way loading ends. */
  function FinishLoad(s: CurrencyState, got: Option<Location>): (t: CurrencyState)
    ensures !t.isLoading
    ensures got.Some? ==> t.location == got.value
    ensures got.None? ==> t.location == s.location
  {
    match got
    case Some(l) => CurrencyState(l, false)
    case None => s.(isLoading := false)
  }

  /** `loadCurrencyData()` with `getUserCurrency` itself as the awaited call.
      Since that call never rejects, the keep-previous branch is not taken:
      the location becomes its answer. The new cookie jar is returned beside
      the state. */
  function Load(s: CurrencyState, jar: CookieJar, ip: Response<IpData>, jarAtFailure: CookieJar)
    : (r: (CurrencyState, CookieJar))
    ensures !r.0.isLoading
    ensures Complete(r.0.location)
    ensures r.0.location == GetUserCurrency(jar, ip, jarAtFailure).location
    ensures r.1 == GetUserCurrency(jar, ip, jarAtFailure).jar
  {
    var res := GetUserCurrency(jar, ip, jarAtFailure);
    (FinishLoad(s, Some(res.location)), res.jar)
  }

  /** `handleCurrencyChange` of `src/components/CurrencySelector.tsx`, the
      caller of `setCurrency`: the choice goes into the state and into the
      `currency` and `currencyCode` cookies; every other cookie stays. */
  function SelectCurrency(s: CurrencyState, jar: CookieJar, currency: string): (r: (CurrencyState, CookieJar))
    ensures r.0 == SetCurrency(s, currency)
    ensures Get(r.1, "currency") == Some(currency) && Get(r.1, "currencyCode") == Some(currency)
    ensures forall name :: name in jar && name != "currency" && name != "currencyCode" ==>
              name in r.1 && r.1[name] == jar[name]
    ensures forall name :: name in r.1 ==> name in jar || name == "currency" || name == "currencyCode"
  {
    (SetCurrency(s, currency), jar["currency" := currency]["currencyCode" := currency])
  }

  // ---------------------------------------------------------------- lemmas

  /** Choosing a currency twice is choosing it once, and the last choice wins. */
  lemma SetCurrencyLastWins(s: CurrencyState, a: string, b: string)
    ensures SetCurrency(SetCurrency(s, a), b) == SetCurrency(s, b)
    ensures SetCurrency(SetCurrency(s, a), a) == SetCurrency(s, a)
  {
  }

  /** The state a load ends in does not depend on the state before it: a
      `setCurrency` made without writing the cookies is forgotten by the
      next refresh. */
  lemma LoadIgnoresPriorState(s: CurrencyState, s': CurrencyState, jar: CookieJar,
                              ip: Response<IpData>, jarAtFailure: CookieJar)
    ensures Load(s, jar, ip, jarAtFailure) == Load(s', jar, ip, jarAtFailure)
  {
  }

  /** Once a load has stored a fetched location, every later refresh
      reproduces the same state without asking the service again. */
  lemma RefreshIsStable(s: CurrencyState, jar: CookieJar, ip: Response<IpData>, jarAtFailure: CookieJar,
                        s': CurrencyState, ip': Response<IpData>, jarAtFailure': CookieJar)
    requires GetUserCurrency(jar, ip, jarAtFailure).fetched
    ensures var first := Load(s, jar, ip, jarAtFailure);
            Load(s', first.1, ip', jarAtFailure') == first
  {
    FetchedLocationReused(jar, ip, jarAtFailure, ip', jarAtFailure');
  }

  /** A choice made through the selector survives a refresh when the country
      cookies are set: the refresh reads it back from the cookies, with no
      request to the geolocation service. */
  lemma SelectedCurrencySurvivesRefresh(s: CurrencyState, jar: CookieJar, currency: string,
                                        ip: Response<IpData>, jarAtFailure: CookieJar)
    requires currency != ""
    requires Truthy(Get(jar, "country")) && Truthy(Get(jar, "countryCode"))
    ensures var chosen := SelectCurrency(s, jar, currency);
            var refreshed := Load(chosen.0, chosen.1, ip, jarAtFailure);
            refreshed.0.location == Location(jar["country"], currency, currency, jar["countryCode"])
            && refreshed.1 == chosen.1 && !GetUserCurrency(chosen.1, ip, jarAtFailure).fetched
  {
  }

  /** Without the country cookie the selector's choice does not survive: a
      refresh asks the geolocation service, and its answer replaces the
      currency. */
  lemma SelectedCurrencyLostWithoutCountry(s: CurrencyState, jar: CookieJar, currency: string,
                                           data: IpData, jarAtFailure: CookieJar)
    requires !Truthy(Get(jar, "country"))
    ensures var chosen := SelectCurrency(s, jar, currency);
            Load(chosen.0, chosen.1, Ok(data), jarAtFailure).0.location == FromIp(data)
  {
  }
}

=== FILE: exchange_rate.dfy ===
/** The browser-side exchange-rate ladder of `src/utils/convertCurrency.ts`.
    The rate cookies, the clock, whether an API key is configured, and the
    outcome of each remote call are parameters, so `getExchangeRate` is a
    pure function from (cookies, clock readings, outcomes) to (rate, cookies').
    The clock is read twice: `now` before any request, for the freshness
    test, and `writtenAt` after the awaited reply, for the new cookie's
    timestamp. */
module ExchangeRate {
  import opened Js

  /** `CACHE_DURATION`: twelve hours, in milliseconds. */
  const CacheDurationMs: int := 12 * 60 * 60 * 1000

  /** `ExchangeRateData`, the JSON stored in a rate cookie. */
  datatype RateData = RateData(rate: real, timestamp: int)

  /** The rate cookies visible to the page, by cookie name. */
  type Jar = map<string, RateData>

  /** The body of the exchange-rate service's pair endpoint. */
  datatype PairBody = PairBody(result: string, conversionRate: real)

  /** The body of the storefront's own `/api/rates` endpoint. */
  datatype BackendBody = BackendBody(rate: real)

  /** Which rung of the ladder produced the rate. */
  datatype Source = SameCurrency | FreshCookie | PrimaryService | Backend | StaleCookie | NoConversion

  /** A remote call the ladder made. */
  datatype Call = PrimaryCall | BackendCall

  datatype Lookup = Lookup(rate: real, jar: Jar, source: Source, calls: seq<Call>)

  /** `rate_${fromCurrency}_${toCurrency}` */
  function CacheKey(from: string, to: string): string {
    "rate_" + from + "_" + to
  }

  /** The strict twelve-hour freshness test. */
  predicate Fresh(d: RateData, now: int) {
    now - d.timestamp < CacheDurationMs
  }

  predicate HasFresh(jar: Jar, key: string, now: int) {
    key in jar && Fresh(jar[key], now)
  }

  /** The lookup gets past the same-currency and fresh-cookie rungs. */
  predicate NeedsFetch(from: string, to: string, jar: Jar, now: int) {
    from != to && !HasFresh(jar, CacheKey(from, to), now)
  }

  /** The primary service counts as answering only with `result === 'success'`
      on an ok response. */
  predicate PrimarySucceeded(primary: Response<PairBody>) {
    primary.Ok? && primary.body.result == "success"
  }

  /** `getExchangeRate(from, to)`: same currency, fresh cookie, primary
      service (only with an API key), backend, stale cookie, then 1. */
  function GetExchangeRate(from: string, to: string, jar: Jar, now: int, writtenAt: int, apiKey: bool,
                           primary: Response<PairBody>, backend: Response<BackendBody>): (r: Lookup)
    // Same currency: 1, with no cookie read or write and no call.
    ensures from == to ==> r == Lookup(1.0, jar, SameCurrency, [])
    // Which rung answers: same currency, then a fresh cookie, then the
    // primary service (with a key), then the backend, then any stale cookie.
    ensures r.source == SameCurrency <==> from == to
    ensures r.source == FreshCookie <==> from != to && HasFresh(jar, CacheKey(from, to), now)
    ensures NeedsFetch(from, to, jar, now) && apiKey && PrimarySucceeded(primary) ==> r.source == PrimaryService
    ensures NeedsFetch(from, to, jar, now) && !(apiKey && PrimarySucceeded(primary)) && backend.Ok?
            ==> r.source == Backend
    ensures NeedsFetch(from, to, jar, now) && !(apiKey && PrimarySucceeded(primary))
            && !backend.Ok? && CacheKey(from, to) in jar
            ==> r.source == StaleCookie
    // No remote call happens exactly when the currencies agree or a fresh cookie exists.
    ensures r.calls == [] <==> from == to || HasFresh(jar, CacheKey(from, to), now)
    ensures from != to && HasFresh(jar, CacheKey(from, to), now) ==>
              r.rate == jar[CacheKey(from, to)].rate && r.jar == jar
    // The primary service is contacted only with an API key, and always first.
    ensures PrimaryCall in r.calls ==> apiKey && r.calls[0] == PrimaryCall
    ensures r.source == PrimaryService ==>
              apiKey && PrimarySucceeded(primary) && r.rate == primary.body.conversionRate
              && r.calls == [PrimaryCall]
    // The backend is asked only after the primary service did not succeed.
    ensures BackendCall in r.calls ==> !(apiKey && PrimarySucceeded(primary))
    // Once the backend is reached it is called exactly once, after the
    // primary service when a key is configured.
    ensures r.source in {Backend, StaleCookie, NoConversion} ==>
              r.calls == (if apiKey then [PrimaryCall] else []) + [BackendCall]
    ensures r.source == Backend ==> backend.Ok? && r.rate == backend.body.rate
    // A fetched rate is written under the pair's key, stamped with the
    // clock as read after the reply (`writtenAt`);
    // every other outcome leaves the cookies as they were.
    ensures r.source in {PrimaryService, Backend} ==>
              r.jar == jar[CacheKey(from, to) := RateData(r.rate, writtenAt)]
    ensures r.source !in {PrimaryService, Backend} ==> r.jar == jar
    // After both services failed, any cookie for the pair (even expired)
    // beats the identity rate.
    ensures r.source == StaleCookie ==>
              CacheKey(from, to) in jar && r.rate == jar[CacheKey(from, to)].rate
              && !backend.Ok? && BackendCall in r.calls
    ensures r.source == NoConversion <==>
              from != to && CacheKey(from, to) !in jar
              && !(apiKey && PrimarySucceeded(primary)) && !backend.Ok?
    ensures r.source == NoConversion ==> r.rate == 1.0
  {
    if from == to then Lookup(1.0, jar, SameCurrency, [])
    else
      var key := CacheKey(from, to);
      if HasFresh(jar, key, now) then Lookup(jar[key].rate, jar, FreshCookie, [])
      else if apiKey && PrimarySucceeded(primary) then
        var rate := primary.body.conversionRate;
        Lookup(rate, jar[key := RateData(rate, writtenAt)], PrimaryService, [PrimaryCall])
      else
        var calls := (if apiKey then [PrimaryCall] else []) + [BackendCall];
        if backend.Ok? then
          Lookup(backend.body.rate, jar[key := RateData(backend.body.rate, writtenAt)], Backend, calls)
        else if key in jar then Lookup(jar[key].rate, jar, StaleCookie, calls)
        else Lookup(1.0, jar, NoConversion, calls)
  }

  datatype Conversion = Conversion(amount: real, jar: Jar, calls: seq<Call>)

  /** `convertCurrency(amountInCAD, toCurrency)` */
  function ConvertCurrency(amountInCad: real, to: string, jar: Jar, now: int, writtenAt: int, apiKey: bool,
                           primary: Response<PairBody>, backend: Response<BackendBody>): (r: Conversion)
    ensures to == "CAD" ==> r == Conversion(amountInCad, jar, [])
    ensures to != "CAD" ==>
              var l := GetExchangeRate("CAD", to, jar, now, writtenAt, apiKey, primary, backend);
              r == Conversion(amountInCad * l.rate, l.jar, l.calls)
  {
    if to == "CAD" then Conversion(amountInCad, jar, [])
    else
      var l := GetExchangeRate("CAD", to, jar, now, writtenAt, apiKey, primary, backend);
      Conversion(amountInCad * l.rate, l.jar, l.calls)
  }

  // ---------------------------------------------------------------- lemmas

  /** The early return for CAD agrees with the ladder itself: converting is
      always multiplying by the CAD rate the ladder reports. */
  lemma ConvertIsMultiplyByRate(amountInCad: real, to: string, jar: Jar, now: int, writtenAt: int, apiKey: bool,
                                primary: Response<PairBody>, backend: Response<BackendBody>)
    ensures ConvertCurrency(amountInCad, to, jar, now, writtenAt, apiKey, primary, backend).amount
            == amountInCad * GetExchangeRate("CAD", to, jar, now, writtenAt, apiKey, primary, backend).rate
  {
  }

  /** A rate fetched and stamped at `w` (the clock read after the reply) is
      served verbatim, with no remote call, to every later lookup of the
      same pair whose freshness test runs before `w + 12h`, whatever the
      services would answer then. */
  lemma FetchedRateReused(from: string, to: string, jar: Jar, t: int, w: int, apiKey: bool,
                          primary: Response<PairBody>, backend: Response<BackendBody>,
                          t': int, w': int, apiKey': bool,
                          primary': Response<PairBody>, backend': Response<BackendBody>)
    requires GetExchangeRate(from, to, jar, t, w, apiKey, primary, backend).source in {PrimaryService, Backend}
    requires t' < w + CacheDurationMs
    ensures var first := GetExchangeRate(from, to, jar, t, w, apiKey, primary, backend);
            var second := GetExchangeRate(from, to, first.jar, t', w', apiKey', primary', backend');
            second.rate == first.rate && second.calls == [] && second.jar == first.jar
  {
  }

  /** From 12 hours after the stored timestamp on, the cached entry no
      longer short-circuits the ladder: some remote call is made. */
  lemma ExpiredRateRefetched(from: string, to: string, jar: Jar, now: int, writtenAt: int, apiKey: bool,
                             primary: Response<PairBody>, backend: Response<BackendBody>)
    requires from != to && CacheKey(from, to) in jar
    requires now >= jar[CacheKey(from, to)].timestamp + CacheDurationMs
    ensures var l := GetExchangeRate(from, to, jar, now, writtenAt, apiKey, primary, backend);
            l.calls != [] && (BackendCall in l.calls || l.source == PrimaryService)
  {
  }

  /** Cookie names of distinct currency pairs never collide as long as the
      codes contain no underscore (true of every ISO 4217 code). */
  lemma {:induction false} CacheKeyInjective(a: string, b: string, c: string, d: string)
    requires '_' !in a && '_' !in b && '_' !in c && '_' !in d
    requires CacheKey(a, b) == CacheKey(c, d)
    ensures a == c && b == d
  {
    var k := CacheKey(a, b);
    assert k[5..5 + |a|] == a && k[5 + |a|] == '_';
    assert CacheKey(c, d)[5..5 + |c|] == c && CacheKey(c, d)[5 + |c|] == '_';
    assert a == c;
    assert b == k[6 + |a|..];
    assert d == CacheKey(c, d)[6 + |c|..];
  }
}

=== FILE: format_price.dfy ===
/** The price-format decisions of `src/utils/formatPrice.ts`: the currency
    configuration table with its CAD fallback, symbol lookup, and which
    number format and which suffixes `formatPrice` chooses. The locale
    renderer (`Intl.NumberFormat(...).format`) is a parameter: the model
    fixes what it is asked to render, not the characters it produces. */
module FormatPrice {
  import Js
  import ExchangeRate

  datatype CurrencyConfig = CurrencyConfig(code: string, symbol: string, locale: string)

  /** `CURRENCY_CONFIGS` */
  const CurrencyConfigs: map<string, CurrencyConfig> := map[
    "CAD" := CurrencyConfig("CAD", "C$", "en-CA"),
    "USD" := CurrencyConfig("USD", "$", "en-US"),
    "EUR" := CurrencyConfig("EUR", "€", "de-DE"),
    "GBP" := CurrencyConfig("GBP", "£", "en-GB"),
    "JPY" := CurrencyConfig("JPY", "¥", "ja-JP"),
    "AUD" := CurrencyConfig("AUD", "A$", "en-AU"),
    "CHF" := CurrencyConfig("CHF", "CHF", "de-CH"),
    "CNY" := CurrencyConfig("CNY", "¥", "zh-CN"),
    "INR" := CurrencyConfig("INR", "₹", "en-IN"),
    "NGN" := CurrencyConfig("NGN", "₦", "en-NG"),
    "ZAR" := CurrencyConfig("ZAR", "R", "en-ZA"),
    "BRL" := CurrencyConfig("BRL", "R$", "pt-BR"),
    "MXN" := CurrencyConfig("MXN", "$", "es-MX"),
    "KRW" := CurrencyConfig("KRW", "₩", "ko-KR"),
    "SGD" := CurrencyConfig("SGD", "S$", "en-SG"),
    "HKD" := CurrencyConfig("HKD", "HK$", "en-HK"),
    "NOK" := CurrencyConfig("NOK", "kr", "nb-NO"),
    "SEK" := CurrencyConfig("SEK", "kr", "sv-SE"),
    "DKK" := CurrencyConfig("DKK", "kr", "da-DK"),
    "PLN" := CurrencyConfig("PLN", "zł", "pl-PL"),
    "CZK" := CurrencyConfig("CZK", "Kč", "cs-CZ"),
    "HUF" := CurrencyConfig("HUF", "Ft", "hu-HU"),
    "RUB" := CurrencyConfig("RUB", "₽", "ru-RU"),
    "TRY" := CurrencyConfig("TRY", "₺", "tr-TR"),
    "ILS" := CurrencyConfig("ILS", "₪", "he-IL"),
    "AED" := CurrencyConfig("AED", "د.إ", "ar-AE"),
    "SAR" := CurrencyConfig("SAR", "﷼", "ar-SA"),
    "EGP" := CurrencyConfig("EGP", "E£", "ar-EG"),
    "THB" := CurrencyConfig("THB", "฿", "th-TH"),
    "MYR" := CurrencyConfig("MYR", "RM", "ms-MY"),
    "IDR" := CurrencyConfig("IDR", "Rp", "id-ID"),
    "PHP" := CurrencyConfig("PHP", "₱", "en-PH"),
    "VND" := CurrencyConfig("VND", "₫", "vi-VN")
  ]

  const Cad := CurrencyConfig("CAD", "C$", "en-CA")

  /** Every entry of the table is filed under its own code and has a
      non-empty symbol, and the CAD entry is the fallback configuration. */
  lemma TableWellFormed()
    ensures "CAD" in CurrencyConfigs && CurrencyConfigs["CAD"] == Cad
    ensures forall k :: k in CurrencyConfigs ==> CurrencyConfigs[k].code == k
    ensures forall k :: k in CurrencyConfigs ==> CurrencyConfigs[k].symbol != ""
  {
  }

  /** `CURRENCY_CONFIGS[code] || CURRENCY_CONFIGS.CAD` */
  function ConfigFor(code: string): (c: CurrencyConfig)
    ensures code in CurrencyConfigs ==> c == CurrencyConfigs[code] && c.code == code
    ensures code !in CurrencyConfigs ==> c == Cad
  {
    TableWellFormed();
    if code in CurrencyConfigs then CurrencyConfigs[code] else Cad
  }

  /** `CURRENCY_CONFIGS[code]?.symbol || code` */
  function GetCurrencySymbol(code: string): (s: string)
    ensures code in CurrencyConfigs ==> s == CurrencyConfigs[code].symbol
    ensures code !in CurrencyConfigs ==> s == code
  {
    TableWellFormed();
    if code in CurrencyConfigs && CurrencyConfigs[code].symbol != "" then CurrencyConfigs[code].symbol
    else code
  }

  // ------------------------------------------------------------ formatting

  datatype Notation = CompactShort | TwoDecimals

  /** One `Intl.NumberFormat(locale, { style: 'currency', currency, ... })
      .format(amount)` request. */
  datatype NumberFormat = NumberFormat(locale: string, currency: string, notation: Notation, amount: real)

  /** The options object; every flag defaults to false. */
  datatype Options = Options(showCad: bool, compact: bool, showCurrencyCode: bool)

  const DefaultOptions := Options(false, false, false)

  /** The CAD rendering used both for the parenthetical and for the catch path. */
  function CadFormat(amountInCad: real): NumberFormat {
    NumberFormat("en-CA", "CAD", TwoDecimals, amountInCad)
  }

  /** The main request: the target's configuration (or CAD's), compact
      notation exactly when asked for and the converted amount is at least
      1000, two fraction digits otherwise. */
  function MainFormat(converted: real, target: string, compact: bool): (f: NumberFormat)
    ensures f.notation == CompactShort <==> compact && converted >= 1000.0
    ensures f.amount == converted
    ensures target in CurrencyConfigs ==> f.currency == target && f.locale == CurrencyConfigs[target].locale
    ensures target !in CurrencyConfigs ==> f.currency == "CAD" && f.locale == "en-CA"
  {
    var c := ConfigFor(target);
    NumberFormat(c.locale, c.code, if compact && converted >= 1000.0 then CompactShort else TwoDecimals, converted)
  }

  /** `" CODE"` when the code is requested and the target is not CAD. */
  function CodeSuffix(target: string, opts: Options): (s: string)
    ensures s != "" <==> opts.showCurrencyCode && target != "CAD"
    ensures s != "" ==> s == " " + target
  {
    if opts.showCurrencyCode && target != "CAD" then " " + target else ""
  }

  /** `" (<CAD rendering> CAD)"` of the unconverted amount, when requested
      and the target is not CAD. */
  function CadSuffix(amountInCad: real, target: string, opts: Options, render: NumberFormat -> string): (s: string)
    ensures s != "" <==> opts.showCad && target != "CAD"
    ensures s != "" ==> s == " (" + render(CadFormat(amountInCad)) + " CAD)"
  {
    if opts.showCad && target != "CAD" then " (" + render(CadFormat(amountInCad)) + " CAD)" else ""
  }

  /** `formatPrice(amountInCAD, target, options)`. `converted` is what
      `convertCurrency` resolved to, or `None` when it threw; the function is
      total, as the source never rejects. */
  function Format(amountInCad: real, target: string, opts: Options,
                  converted: Js.Option<real>, render: NumberFormat -> string): (s: string)
    // The catch path: the unconverted amount rendered as CAD, no suffixes.
    ensures converted.None? ==> s == render(CadFormat(amountInCad))
    // Otherwise: the main rendering, then the code suffix, then the CAD one.
    ensures converted.Some? ==>
              s == render(MainFormat(converted.value, target, opts.compact))
                   + CodeSuffix(target, opts) + CadSuffix(amountInCad, target, opts, render)
  {
    match converted
    case None => render(CadFormat(amountInCad))
    case Some(c) =>
      render(MainFormat(c, target, opts.compact)) + CodeSuffix(target, opts)
      + CadSuffix(amountInCad, target, opts, render)
  }

  /** `formatPriceSync(amount, currency)`: no conversion, two fraction digits. */
  function FormatSync(amount: real, currency: string, render: NumberFormat -> string): (s: string)
    ensures s == render(MainFormat(amount, currency, false))
  {
    var c := ConfigFor(currency);
    render(NumberFormat(c.locale, c.code, TwoDecimals, amount))
  }

  // ---------------------------------------------------------------- lemmas

  /** With the default options nothing is appended: the asynchronous
      formatter renders exactly what the synchronous one renders for the
      converted amount. */
  lemma DefaultIsSync(amountInCad: real, target: string, converted: real, render: NumberFormat -> string)
    ensures Format(amountInCad, target, DefaultOptions, Js.Some(converted), render)
            == FormatSync(converted, target, render)
  {
  }

  /** For CAD no option adds a suffix. */
  lemma CadTargetHasNoSuffix(amountInCad: real, opts: Options, converted: real, render: NumberFormat -> string)
    ensures Format(amountInCad, "CAD", opts, Js.Some(converted), render)
            == render(MainFormat(converted, "CAD", opts.compact))
  {
  }

  /** With both suffixes requested for a non-CAD target, the code comes
      before the CAD parenthetical, and the output ends with " CAD)". */
  lemma SuffixOrder(amountInCad: real, target: string, converted: real, render: NumberFormat -> string)
    requires target != "CAD"
    ensures var s := Format(amountInCad, target, Options(true, false, true), Js.Some(converted), render);
            var main := render(MainFormat(converted, target, false));
            var cad := render(CadFormat(amountInCad));
            s == main + " " + target + " (" + cad + " CAD)"
  {
  }

  /** The synchronous formatter renders an unknown code exactly as it
      renders CAD. */
  lemma UnknownFormatsAsCad(amount: real, code: string, render: NumberFormat -> string)
    requires code !in CurrencyConfigs
    ensures FormatSync(amount, code, render) == FormatSync(amount, "CAD", render)
  {
  }

  /** The whole price path: `formatPrice` renders what `convertCurrency`
      returns, which is the CAD amount times the rate the ladder looked up;
      a CAD target is rendered unconverted and with no suffix. */
  lemma FormatConvertedPrice(amountInCad: real, target: string, opts: Options, jar: ExchangeRate.Jar,
                             now: int, writtenAt: int, apiKey: bool,
                             primary: Js.Response<ExchangeRate.PairBody>,
                             backend: Js.Response<ExchangeRate.BackendBody>, render: NumberFormat -> string)
    ensures var c := ExchangeRate.ConvertCurrency(amountInCad, target, jar, now, writtenAt, apiKey, primary, backend);
            var l := ExchangeRate.GetExchangeRate("CAD", target, jar, now, writtenAt, apiKey, primary, backend);
            Format(amountInCad, target, opts, Js.Some(c.amount), render)
            == render(MainFormat(amountInCad * l.rate, target, opts.compact))
               + CodeSuffix(target, opts) + CadSuffix(amountInCad, target, opts, render)
    ensures target == "CAD" ==>
              var c := ExchangeRate.ConvertCurrency(amountInCad, target, jar, now, writtenAt, apiKey, primary, backend);
              Format(amountInCad, target, opts, Js.Some(c.amount), render)
              == render(MainFormat(amountInCad, "CAD", opts.compact))
  {
    ExchangeRate.ConvertIsMultiplyByRate(amountInCad, target, jar, now, writtenAt, apiKey, primary, backend);
  }
}

=== FILE: js.dfy ===
/** The JavaScript value semantics the source leans on: `undefined`, string
    truthiness and `||` defaulting, and the three ways an awaited `fetch`
    can end. */
module Js {

  /** A value that may be `undefined`. */
  datatype Option<T> = None | Some(value: T) {
    function GetOr(default: T): T {
      match this
      case Some(v) => v
      case None => default
    }
  }

  /** A JavaScript string value is truthy iff it is defined and non-empty. */
  predicate Truthy(s: Option<string>) {
    s.Some? && s.value != ""
  }

  /** `a || b` on optional strings: the first truthy operand, else `b`. */
  function OrElse(a: Option<string>, b: string): (r: string)
    ensures Truthy(a) ==> r == a.value
    ensures !Truthy(a) ==> r == b
    ensures b != "" ==> r != ""
  {
    if Truthy(a) then a.value else b
  }

  /** How an awaited `fetch(...)` followed by `response.json()` ends:
      the promise rejects (network error or unparsable body), the response
      has a non-2xx status, or a 2xx response carries the parsed body. */
  datatype Response<T> = Unreachable | NotOk(status: int) | Ok(body: T)
}

=== FILE: rates_server.dfy ===
/** The `/api/rates` handler of `server/server.js`, with its in-process TTL
    cache (a `node-cache` instance with a standard TTL of 43200 seconds).
    The query, the cache, the clock, the API-key setting and the upstream
    outcome are parameters; the handler returns the reply and the new cache.
    The clock is read twice: `now` at `cache.get`, before any request, and
    `setAt` at `cache.set`, after the awaited reply. */
module RatesServer {
  import opened Js

  /** `stdTTL: 43200`, in seconds. */
  const StdTtlSeconds: int := 43200
  const TtlMs: int := StdTtlSeconds * 1000

  /** A cache slot: the stored rate and the instant it stops being served.
      `node-cache` serves an entry while `now <= expiresAt`. */
  datatype Slot = Slot(rate: real, expiresAt: int)
  type Cache = map<string, Slot>

  /** The query string; either parameter may be absent. */
  datatype Query = Query(from: Option<string>, to: Option<string>)

  /** The exchange-rate service's pair endpoint body. */
  datatype PairBody = PairBody(result: string, conversionRate: real, errorType: Option<string>)

  /** Why an upstream fetch failed, as carried in the reply's `details`. */
  datatype Detail = RequestFailed | BadStatus(status: int) | ApiError(errorType: string)

  datatype Body =
    | RateBody(rate: real, from: string, to: string, cached: bool)
    | ErrorBody(error: string, details: Option<Detail>)

  datatype Reply = Reply(status: int, body: Body)

  datatype Outcome = Outcome(reply: Reply, cache: Cache, fetched: bool)

  const MissingTo := "Target currency (to) is required"
  const NoApiKey := "Exchange API key not configured"
  const FetchFailed := "Failed to fetch exchange rate"

  /** `${from}_${to}` */
  function CacheKey(from: string, to: string): string {
    from + "_" + to
  }

  /** `cache.get(key)` followed by the truthiness test: an expired slot reads
      as absent, and a stored rate of 0 reads as a miss. */
  predicate Hit(cache: Cache, key: string, now: int) {
    key in cache && now <= cache[key].expiresAt && cache[key].rate != 0.0
  }

  /** `GET /api/rates?from=..&to=..` */
  function HandleRates(q: Query, cache: Cache, now: int, setAt: int, apiKey: bool,
                       upstream: Response<PairBody>): (o: Outcome)
    // A missing or empty `to` is a client error, before anything else.
    ensures !Truthy(q.to) ==>
              o == Outcome(Reply(400, ErrorBody(MissingTo, None)), cache, false)
    // Same currency: rate 1, not marked cached, no cache use and no fetch.
    ensures Truthy(q.to) && q.from.GetOr("CAD") == q.to.value ==>
              o == Outcome(Reply(200, RateBody(1.0, q.to.value, q.to.value, false)), cache, false)
    // Only a 200 reply carries a rate, and every 200 reply echoes the
    // pair with `from` defaulting to CAD.
    ensures o.reply.status == 200 <==> o.reply.body.RateBody?
    ensures o.reply.body.RateBody? ==>
              Truthy(q.to) && o.reply.body.to == q.to.value && o.reply.body.from == q.from.GetOr("CAD")
    // A cache hit is served as cached, without a fetch.
    ensures o.reply.body.RateBody? && o.reply.body.cached ==>
              var key := CacheKey(o.reply.body.from, o.reply.body.to);
              Hit(cache, key, now) && o.reply.body.rate == cache[key].rate && !o.fetched
    // A hit is served as cached, with no fetch and no cache change.
    ensures Truthy(q.to) && q.from.GetOr("CAD") != q.to.value
            && Hit(cache, CacheKey(q.from.GetOr("CAD"), q.to.value), now) ==>
              var key := CacheKey(q.from.GetOr("CAD"), q.to.value);
              o == Outcome(Reply(200, RateBody(cache[key].rate, q.from.GetOr("CAD"), q.to.value, true)), cache, false)
    // A miss without an API key is the no-key 500, with no fetch.
    ensures Miss(q, cache, now) && !apiKey ==>
              o == Outcome(Reply(500, ErrorBody(NoApiKey, None)), cache, false)
    // A miss with a key fetches; an upstream success is returned and cached
    // for the TTL, and each kind of upstream failure gives its own detail.
    ensures Miss(q, cache, now) && apiKey ==> o.fetched
    ensures Miss(q, cache, now) && apiKey && upstream.Ok? && upstream.body.result == "success" ==>
              var from, to := q.from.GetOr("CAD"), q.to.value;
              o.reply == Reply(200, RateBody(upstream.body.conversionRate, from, to, false))
              && o.cache == cache[CacheKey(from, to) := Slot(upstream.body.conversionRate, setAt + TtlMs)]
    ensures Miss(q, cache, now) && apiKey && !(upstream.Ok? && upstream.body.result == "success") ==>
              o.reply == Reply(500, ErrorBody(FetchFailed, Some(UpstreamDetail(upstream)))) && o.cache == cache
    // The upstream service is called only on a miss with an API key.
    ensures o.fetched ==> apiKey && Truthy(q.to)
                          && !Hit(cache, CacheKey(q.from.GetOr("CAD"), q.to.value), now)
    // The cache changes only by storing a freshly fetched rate for 12 hours
    // from the moment it is stored.
    ensures o.cache != cache ==>
              o.fetched && upstream.Ok? && o.reply == Reply(200, RateBody(upstream.body.conversionRate,
                                                          q.from.GetOr("CAD"), q.to.value, false))
              && o.cache == cache[CacheKey(q.from.GetOr("CAD"), q.to.value)
                                  := Slot(upstream.body.conversionRate, setAt + TtlMs)]
    // Every failure is a 500 with the fixed message, and leaves the cache alone.
    ensures o.reply.status == 500 ==>
              o.cache == cache && o.reply.body.ErrorBody?
              && o.reply.body.error in {NoApiKey, FetchFailed}
  {
    if !Truthy(q.to) then Outcome(Reply(400, ErrorBody(MissingTo, None)), cache, false)
    else
      var from, to := q.from.GetOr("CAD"), q.to.value;
      if from == to then Outcome(Reply(200, RateBody(1.0, from, to, false)), cache, false)
      else
        var key := CacheKey(from, to);
        if Hit(cache, key, now) then
          Outcome(Reply(200, RateBody(cache[key].rate, from, to, true)), cache, false)
        else if !apiKey then
          Outcome(Reply(500, ErrorBody(NoApiKey, None)), cache, false)
        else
          if upstream.Ok? && upstream.body.result == "success" then
            var rate := upstream.body.conversionRate;
            Outcome(Reply(200, RateBody(rate, from, to, false)), cache[key := Slot(rate, setAt + TtlMs)], true)
          else
            Outcome(Reply(500, ErrorBody(FetchFailed, Some(UpstreamDetail(upstream)))), cache, true)
  }

  /** A request that reaches the cache lookup and misses. */
  predicate Miss(q: Query, cache: Cache, now: int) {
    Truthy(q.to) && q.from.GetOr("CAD") != q.to.value
    && !Hit(cache, CacheKey(q.from.GetOr("CAD"), q.to.value), now)
  }

  /** The `details` of a failed fetch: the request's own failure, the
      non-ok status, or `data['error-type'] || 'Unknown error'`. */
  function UpstreamDetail(upstream: Response<PairBody>): (d: Detail)
    ensures upstream.Unreachable? <==> d == RequestFailed
    ensures upstream.NotOk? <==> d.BadStatus?
    ensures upstream.NotOk? ==> d == BadStatus(upstream.status)
    ensures upstream.Ok? ==> d.ApiError? && d.errorType != ""
    ensures upstream.Ok? && Truthy(upstream.body.errorType) ==> d == ApiError(upstream.body.errorType.value)
    ensures upstream.Ok? && !Truthy(upstream.body.errorType) ==> d == ApiError("Unknown error")
  {
    match upstream
    case Unreachable => RequestFailed
    case NotOk(status) => BadStatus(status)
    case Ok(body) => ApiError(OrElse(body.errorType, "Unknown error"))
  }

  // ---------------------------------------------------------------- lemmas

  /** A miss without an API key is a 500 that caches nothing and fetches
      nothing. */
  lemma NoKeyNoFetch(q: Query, cache: Cache, now: int, setAt: int, upstream: Response<PairBody>)
    requires Truthy(q.to) && q.from.GetOr("CAD") != q.to.value
    requires !Hit(cache, CacheKey(q.from.GetOr("CAD"), q.to.value), now)
    ensures HandleRates(q, cache, now, setAt, false, upstream)
            == Outcome(Reply(500, ErrorBody(NoApiKey, None)), cache, false)
  {
  }

  /** A successful upstream answer is cached and then served, marked as
      cached and without a new fetch, to every request for the pair up to
      12 hours after it was stored. */
  lemma FetchedRateServedFromCache(q: Query, cache: Cache, t: int, setAt: int, upstream: Response<PairBody>,
                                   t': int, setAt': int, apiKey': bool, upstream': Response<PairBody>)
    requires HandleRates(q, cache, t, setAt, true, upstream).fetched
    requires HandleRates(q, cache, t, setAt, true, upstream).reply.status == 200
    requires upstream.Ok? && upstream.body.conversionRate != 0.0
    requires t' <= setAt + TtlMs
    ensures var first := HandleRates(q, cache, t, setAt, true, upstream);
            var second := HandleRates(q, first.cache, t', setAt', apiKey', upstream');
            second.reply == Reply(200, RateBody(upstream.body.conversionRate,
                                                q.from.GetOr("CAD"), q.to.value, true))
            && !second.fetched && second.cache == first.cache
  {
  }

  /** Upstream failures of every kind give the same 500 reply and leave the
      cache as it was. */
  lemma UpstreamFailureKeepsCache(q: Query, cache: Cache, now: int, setAt: int, upstream: Response<PairBody>)
    requires Truthy(q.to) && q.from.GetOr("CAD") != q.to.value
    requires !Hit(cache, CacheKey(q.from.GetOr("CAD"), q.to.value), now)
    requires !upstream.Ok? || upstream.body.result != "success"
    ensures var o := HandleRates(q, cache, now, setAt, true, upstream);
            o.reply.status == 500 && o.reply.body.error == FetchFailed && o.cache == cache
  {
  }
}

=== FILE: search.dfy ===
/** `SearchProvider` of `src/context/SearchContext.tsx`: the product filter
    and the search state it sits beside. */
module Search {
  import opened Text
  import Seqs
  import opened Airtable

  /** Whether one product's name, description or category contains the
      normalised query, after lower-casing the field. */
  predicate Hit(p: Product, needle: string) {
    Contains(LowerStr(p.name), needle)
    || Contains(LowerStr(p.description), needle)
    || Contains(LowerStr(p.category), needle)
  }

  function Matcher(needle: string): Product -> bool {
    p => Hit(p, needle)
  }

  /** `query.toLowerCase().trim()` */
  function Normalise(query: string): string {
    Trim(LowerStr(query))
  }

  /** `filterProducts(products, query)`: a blank query keeps the list as is;
      otherwise the products some field of which contains the normalised
      query, in their original order. */
  function FilterProducts(products: seq<Product>, query: string): (r: seq<Product>)
    ensures AllWhitespace(query) ==> r == products
    ensures Seqs.IsSubsequence(r, products)
    ensures !AllWhitespace(query) ==>
              forall i :: 0 <= i < |products| ==> (products[i] in r <==> Hit(products[i], Normalise(query)))
    ensures !AllWhitespace(query) ==> forall i :: 0 <= i < |r| ==> Hit(r[i], Normalise(query))
    // A matching product is kept as many times as it is listed.
    ensures forall p :: Hit(p, Normalise(query)) ==> multiset(r)[p] == multiset(products)[p]
  {
    TrimEmptyIffBlank(query);
    if Trim(query) == [] then
      SubsequenceRefl(products);
      products
    else
      MatchFilter(products, Normalise(query));
      Seqs.Filter(products, Matcher(Normalise(query)))
  }

  /** What filtering with `Matcher(needle)` keeps, in terms of `Hit`. */
  lemma MatchFilter(products: seq<Product>, needle: string)
    ensures var r := Seqs.Filter(products, Matcher(needle));
            Seqs.IsSubsequence(r, products)
            && (forall i :: 0 <= i < |products| ==> (products[i] in r <==> Hit(products[i], needle)))
            && (forall i :: 0 <= i < |r| ==> Hit(r[i], needle))
            && (forall p :: Hit(p, needle) ==> multiset(r)[p] == multiset(products)[p])
  {
    Seqs.FilterIsSubsequence(products, Matcher(needle));
    Seqs.FilterCountsAll(products, Matcher(needle));
  }

  lemma {:induction false} SubsequenceRefl<T>(s: seq<T>)
    ensures Seqs.IsSubsequence(s, s)
    decreases |s|
  {
    if |s| > 0 {
      SubsequenceRefl(s[1..]);
    }
  }

  // ---------------------------------------------------------------- lemmas

  /** Searching the results again with the same query changes nothing. */
  lemma FilterProductsIdempotent(products: seq<Product>, query: string)
    ensures FilterProducts(FilterProducts(products, query), query) == FilterProducts(products, query)
  {
    TrimEmptyIffBlank(query);
    if Trim(query) != [] {
      Seqs.FilterIdempotent(products, Matcher(Normalise(query)));
    }
  }

  lemma {:induction false} LowerStrIdempotent(s: string)
    ensures LowerStr(LowerStr(s)) == LowerStr(s)
  {
    assert forall i :: 0 <= i < |s| ==> LowerStr(LowerStr(s))[i] == LowerStr(s)[i];
  }

  /** The query's case does not matter: a lower-cased query finds exactly
      what the original finds. */
  lemma {:induction false} QueryCaseInsensitive(products: seq<Product>, query: string)
    ensures FilterProducts(products, LowerStr(query)) == FilterProducts(products, query)
  {
    LowerStrIdempotent(query);
    forall c: char ensures IsWhitespace(Lower(c)) <==> IsWhitespace(c) {
      LowerKeepsWhitespace(c);
    }
    assert AllWhitespace(LowerStr(query)) <==> AllWhitespace(query) by {
      assert forall i :: 0 <= i < |query| ==> LowerStr(query)[i] == Lower(query[i]);
    }
    TrimEmptyIffBlank(query);
    TrimEmptyIffBlank(LowerStr(query));
  }

  /** Splitting the catalogue and searching each part gives the two parts'
      results, one after the other. */
  lemma SearchDistributes(a: seq<Product>, b: seq<Product>, query: string)
    ensures FilterProducts(a + b, query) == FilterProducts(a, query) + FilterProducts(b, query)
  {
    TrimEmptyIffBlank(query);
    if Trim(query) != [] {
      Seqs.FilterConcat(a, b, Matcher(Normalise(query)));
    }
  }

  // ------------------------------------------------------------- the state

  datatype SearchState = SearchState(searchQuery: string, searchResults: seq<Product>, isSearching: bool)

  /** The provider's initial state. */
  const InitialSearch := SearchState("", [], false)

  /** `clearSearch()`: back to the initial state, from any state. */
  function ClearSearch(s: SearchState): (t: SearchState)
    ensures t == InitialSearch
    ensures t.searchQuery == "" && t.searchResults == [] && !t.isSearching
  {
    SearchState("", [], false)
  }
}

=== FILE: seqs.dfy ===
/** Generic sequence helpers shared by the cart, search and record codec:
    an order-preserving filter, the sub-sequence relation it satisfies,
    and left-to-right sums (the shape of JavaScript's `reduce` with 0). */
module Seqs {

  /** `a` can be obtained from `b` by deleting elements, keeping order. */
  ghost predicate IsSubsequence<T>(a: seq<T>, b: seq<T>)
    decreases |b|
  {
    if |a| == 0 then true
    else if |b| == 0 then false
    else if a[0] == b[0] then IsSubsequence(a[1..], b[1..])
    else IsSubsequence(a, b[1..])
  }

  /** Keeps, in their original order, exactly the elements satisfying `p`
      (JavaScript's `Array.prototype.filter`). */
  function Filter<T>(s: seq<T>, p: T -> bool): (r: seq<T>)
    ensures |r| <= |s|
    ensures forall i :: 0 <= i < |r| ==> r[i] in s && p(r[i])
    ensures forall i :: 0 <= i < |s| ==> (s[i] in r <==> p(s[i]))
  {
    if |s| == 0 then []
    else if p(s[0]) then [s[0]] + Filter(s[1..], p)
    else Filter(s[1..], p)
  }

  lemma {:induction false} FilterIsSubsequence<T>(s: seq<T>, p: T -> bool)
    ensures IsSubsequence(Filter(s, p), s)
  {
    if |s| > 0 {
      FilterIsSubsequence(s[1..], p);
      var r := Filter(s, p);
      if p(s[0]) {
        assert r[0] == s[0] && r[1..] == Filter(s[1..], p);
      } else if |r| > 0 {
        assert r == Filter(s[1..], p);
        SubsequenceSkipHead(r, s);
      }
    }
  }

  /** Skipping a head that does not start `a` keeps the relation. */
  lemma {:induction false} SubsequenceSkipHead<T>(a: seq<T>, b: seq<T>)
    requires |b| > 0 && IsSubsequence(a, b[1..])
    ensures IsSubsequence(a, b)
    decreases |b|, 0
  {
    if |a| > 0 && a[0] == b[0] {
      SubsequenceDropHead(a, b[1..]);
    }
  }

  lemma {:induction false} SubsequenceDropHead<T>(a: seq<T>, b: seq<T>)
    requires |a| > 0 && IsSubsequence(a, b)
    ensures IsSubsequence(a[1..], b)
    decreases |b|, 1
  {
    if |b| > 0 {
      if a[0] == b[0] {
        SubsequenceSkipHead(a[1..], b);
      } else {
        SubsequenceDropHead(a, b[1..]);
        SubsequenceSkipHead(a[1..], b);
      }
    }
  }

  /** When every element passes, filtering returns the input itself. */
  lemma {:induction false} FilterAllPass<T>(s: seq<T>, p: T -> bool)
    requires forall i :: 0 <= i < |s| ==> p(s[i])
    ensures Filter(s, p) == s
  {
    if |s| > 0 {
      FilterAllPass(s[1..], p);
      assert s == [s[0]] + s[1..];
    }
  }

  /** Filtering keeps every passing value as often as it occurs in the
      input, and no failing value at all. */
  lemma {:induction false} FilterCounts<T>(s: seq<T>, p: T -> bool, x: T)
    ensures multiset(Filter(s, p))[x] == if p(x) then multiset(s)[x] else 0
  {
    if |s| > 0 {
      FilterCounts(s[1..], p, x);
      assert s == [s[0]] + s[1..];
    }
  }

  lemma FilterCountsAll<T>(s: seq<T>, p: T -> bool)
    ensures forall x :: multiset(Filter(s, p))[x] == if p(x) then multiset(s)[x] else 0
  {
    forall x ensures multiset(Filter(s, p))[x] == if p(x) then multiset(s)[x] else 0 {
      FilterCounts(s, p, x);
    }
  }

  /** Filtering twice with the same predicate is the same as filtering once. */
  lemma FilterIdempotent<T>(s: seq<T>, p: T -> bool)
    ensures Filter(Filter(s, p), p) == Filter(s, p)
  {
    FilterAllPass(Filter(s, p), p);
  }

  /** Filtering distributes over concatenation. */
  lemma {:induction false} FilterConcat<T>(a: seq<T>, b: seq<T>, p: T -> bool)
    ensures Filter(a + b, p) == Filter(a, p) + Filter(b, p)
  {
    if |a| > 0 {
      FilterConcat(a[1..], b, p);
      assert (a + b)[1..] == a[1..] + b;
    } else {
      assert a + b == b;
    }
  }

  /** When exactly one element fails the test, filtering deletes just it. */
  lemma {:induction false} FilterDeletesSingle<T>(s: seq<T>, k: nat, p: T -> bool)
    requires k < |s| && !p(s[k])
    requires forall i :: 0 <= i < |s| && i != k ==> p(s[i])
    ensures Filter(s, p) == s[..k] + s[k + 1..]
  {
    var t := s[1..];
    if k == 0 {
      FilterAllPass(t, p);
    } else {
      FilterDeletesSingle(t, k - 1, p);
      assert Filter(s, p) == [s[0]] + Filter(t, p);
      ConsDeletion(s, k);
    }
  }

  /** Deleting index `k > 0` commutes with taking the head off. */
  lemma ConsDeletion<T>(s: seq<T>, k: nat)
    requires 0 < k < |s|
    ensures [s[0]] + (s[1..][..k - 1] + s[1..][k..]) == s[..k] + s[k + 1..]
  {
    assert [s[0]] + s[1..][..k - 1] == s[..k];
    assert s[1..][k..] == s[k + 1..];
  }

  lemma SplitAt<T>(s: seq<T>, k: nat)
    requires k < |s|
    ensures s[..k] + [s[k]] + s[k + 1..] == s
  {
  }

  /** `f(s[0]) + f(s[1]) + ...`, the value of `s.reduce((t, x) => t + f(x), 0)`
      (addition of exact numbers does not depend on the grouping). */
  function SumInt<T>(s: seq<T>, f: T -> int): int
  {
    if |s| == 0 then 0 else f(s[0]) + SumInt(s[1..], f)
  }

  function SumReal<T>(s: seq<T>, f: T -> real): real
  {
    if |s| == 0 then 0.0 else f(s[0]) + SumReal(s[1..], f)
  }

  /** `reduce((acc, x) => acc + f(x), acc)` as JavaScript evaluates it:
      left to right, from the accumulator. */
  function FoldLeftInt<T>(s: seq<T>, f: T -> int, acc: int): int
  {
    if |s| == 0 then acc else FoldLeftInt(s[1..], f, acc + f(s[0]))
  }

  function FoldLeftReal<T>(s: seq<T>, f: T -> real, acc: real): real
  {
    if |s| == 0 then acc else FoldLeftReal(s[1..], f, acc + f(s[0]))
  }

  /** The sum equals the left fold started from 0, shifted by the start. */
  lemma {:induction false} SumIntIsFoldLeft<T>(s: seq<T>, f: T -> int, acc: int)
    ensures FoldLeftInt(s, f, acc) == acc + SumInt(s, f)
  {
    if |s| > 0 {
      SumIntIsFoldLeft(s[1..], f, acc + f(s[0]));
    }
  }

  lemma {:induction false} SumRealIsFoldLeft<T>(s: seq<T>, f: T -> real, acc: real)
    ensures FoldLeftReal(s, f, acc) == acc + SumReal(s, f)
  {
    if |s| > 0 {
      SumRealIsFoldLeft(s[1..], f, acc + f(s[0]));
    }
  }

  lemma {:induction false} SumIntConcat<T>(a: seq<T>, b: seq<T>, f: T -> int)
    ensures SumInt(a + b, f) == SumInt(a, f) + SumInt(b, f)
  {
    if |a| > 0 {
      assert (a + b)[1..] == a[1..] + b;
      SumIntConcat(a[1..], b, f);
    } else {
      assert a + b == b;
    }
  }

  lemma SumIntMiddle<T>(a: seq<T>, x: T, b: seq<T>, f: T -> int)
    ensures SumInt(a + [x] + b, f) == SumInt(a + b, f) + f(x)
  {
    SumIntConcat(a, [x], f);
    SumIntConcat(a + [x], b, f);
    SumIntConcat(a, b, f);
  }

  /** Deleting one element lowers the sum by exactly that element's value. */
  lemma SumIntDelete<T>(s: seq<T>, k: nat, f: T -> int)
    requires k < |s|
    ensures SumInt(s[..k] + s[k + 1..], f) == SumInt(s, f) - f(s[k])
  {
    SplitAt(s, k);
    SumIntMiddle(s[..k], s[k], s[k + 1..], f);
  }

  /** Replacing one element changes the sum by exactly the difference. */
  lemma SumIntUpdate<T>(s: seq<T>, i: nat, x: T, f: T -> int)
    requires i < |s|
    ensures SumInt(s[i := x], f) == SumInt(s, f) - f(s[i]) + f(x)
  {
    assert s == s[..i] + [s[i]] + s[i + 1..];
    assert s[i := x] == s[..i] + [x] + s[i + 1..];
    SumIntMiddle(s[..i], s[i], s[i + 1..], f);
    SumIntMiddle(s[..i], x, s[i + 1..], f);
  }

  /** Appending one element raises the sum by that element's value. */
  lemma SumIntAppend<T>(s: seq<T>, x: T, f: T -> int)
    ensures SumInt(s + [x], f) == SumInt(s, f) + f(x)
  {
    SumIntConcat(s, [x], f);
  }

  lemma {:induction false} SumRealConcat<T>(a: seq<T>, b: seq<T>, f: T -> real)
    ensures SumReal(a + b, f) == SumReal(a, f) + SumReal(b, f)
  {
    if |a| > 0 {
      assert (a + b)[1..] == a[1..] + b;
      SumRealConcat(a[1..], b, f);
    } else {
      assert a + b == b;
    }
  }

  lemma SumRealMiddle<T>(a: seq<T>, x: T, b: seq<T>, f: T -> real)
    ensures SumReal(a + [x] + b, f) == SumReal(a + b, f) + f(x)
  {
    SumRealConcat(a, [x], f);
    SumRealConcat(a + [x], b, f);
    SumRealConcat(a, b, f);
  }

  /** Deleting one element lowers the sum by exactly that element's value. */
  lemma SumRealDelete<T>(s: seq<T>, k: nat, f: T -> real)
    requires k < |s|
    ensures SumReal(s[..k] + s[k + 1..], f) == SumReal(s, f) - f(s[k])
  {
    SplitAt(s, k);
    SumRealMiddle(s[..k], s[k], s[k + 1..], f);
  }

  /** Replacing one element changes the sum by exactly the difference. */
  lemma SumRealUpdate<T>(s: seq<T>, i: nat, x: T, f: T -> real)
    requires i < |s|
    ensures SumReal(s[i := x], f) == SumReal(s, f) - f(s[i]) + f(x)
  {
    assert s == s[..i] + [s[i]] + s[i + 1..];
    assert s[i := x] == s[..i] + [x] + s[i + 1..];
    SumRealMiddle(s[..i], s[i], s[i + 1..], f);
    SumRealMiddle(s[..i], x, s[i + 1..], f);
  }

  /** Appending one element raises the sum by that element's value. */
  lemma SumRealAppend<T>(s: seq<T>, x: T, f: T -> real)
    ensures SumReal(s + [x], f) == SumReal(s, f) + f(x)
  {
    SumRealConcat(s, [x], f);
  }
}

=== FILE: text.dfy ===
/** String operations the storefront relies on, as JavaScript defines them:
    `trim`, `toLowerCase` (restricted to ASCII letters), `includes`, `join`,
    and decimal rendering of integers. */
module Text {

  /** The characters JavaScript's `String.prototype.trim` removes: the
      WhiteSpace and LineTerminator code points of ECMAScript. */
  predicate IsWhitespace(c: char) {
    c == ' ' || c == '\t' || c == '\n' || c == '\r' || c == '\U{000B}' || c == '\U{000C}'
    || c == '\U{00A0}' || c == '\U{FEFF}' || c == '\U{1680}'
    || ('\U{2000}' <= c <= '\U{200A}')
    || c == '\U{2028}' || c == '\U{2029}' || c == '\U{202F}' || c == '\U{205F}' || c == '\U{3000}'
  }

  predicate AllWhitespace(s: string) {
    forall i :: 0 <= i < |s| ==> IsWhitespace(s[i])
  }

  /** The end of the whitespace run that starts at index `i`. */
  function RunEnd(s: string, i: nat): (j: nat)
    requires i <= |s|
    ensures i <= j <= |s|
    ensures forall k :: i <= k < j ==> IsWhitespace(s[k])
    ensures j == |s| || !IsWhitespace(s[j])
    decreases |s| - i
  {
    if i < |s| && IsWhitespace(s[i]) then RunEnd(s, i + 1) else i
  }

  /** The start of the whitespace run that ends just before index `j`. */
  function RunStart(s: string, j: nat): (i: nat)
    requires j <= |s|
    ensures i <= j
    ensures forall k :: i <= k < j ==> IsWhitespace(s[k])
    ensures i == 0 || !IsWhitespace(s[i - 1])
  {
    if j > 0 && IsWhitespace(s[j - 1]) then RunStart(s, j - 1) else j
  }

  /** `trimStart`: the input without its leading whitespace. */
  function TrimStart(s: string): (r: string)
    ensures |r| <= |s| && r == s[|s| - |r|..]
    ensures AllWhitespace(s[..|s| - |r|])
    ensures r == [] || !IsWhitespace(r[0])
  {
    var n := RunEnd(s, 0);
    assert forall k :: 0 <= k < n ==> s[..n][k] == s[k];
    s[n..]
  }

  /** `trimEnd`: the input without its trailing whitespace. */
  function TrimEnd(s: string): (r: string)
    ensures |r| <= |s| && r == s[..|r|]
    ensures AllWhitespace(s[|r|..])
    ensures r == [] || !IsWhitespace(r[|r| - 1])
  {
    var n := RunStart(s, |s|);
    assert forall k :: 0 <= k < |s| - n ==> s[n..][k] == s[n + k];
    s[..n]
  }

  /** `s.trim()`: `s` is the result surrounded by two whitespace-only runs,
      and the result neither starts nor ends with whitespace. */
  function Trim(s: string): (r: string)
    ensures exists i, j :: 0 <= i <= j <= |s| && r == s[i..j]
                           && AllWhitespace(s[..i]) && AllWhitespace(s[j..])
    ensures r == [] || (!IsWhitespace(r[0]) && !IsWhitespace(r[|r| - 1]))
  {
    var t := TrimStart(s);
    var r := TrimEnd(t);
    TrimSlice(s, t, r);
    r
  }

  lemma TrimSlice(s: string, t: string, r: string)
    requires |t| <= |s| && t == s[|s| - |t|..] && AllWhitespace(s[..|s| - |t|])
    requires |r| <= |t| && r == t[..|r|] && AllWhitespace(t[|r|..])
    ensures exists i, j :: 0 <= i <= j <= |s| && r == s[i..j]
                           && AllWhitespace(s[..i]) && AllWhitespace(s[j..])
  {
    var i := |s| - |t|;
    var j := i + |r|;
    SliceOfSuffix(s, i, |r|);
    assert r == s[i..j];
    assert AllWhitespace(s[..i]);
    assert AllWhitespace(s[j..]);
  }

  lemma SliceOfSuffix(s: string, i: nat, k: nat)
    requires i <= |s| && k <= |s| - i
    ensures s[i..][k..] == s[i + k..] && s[i..][..k] == s[i..i + k]
  {
  }

  /** A string trims to the empty string iff it consists of whitespace only. */
  lemma TrimEmptyIffBlank(s: string)
    ensures Trim(s) == [] <==> AllWhitespace(s)
  {
    var t := TrimStart(s);
    BlankIff(s, t, TrimEnd(t));
  }

  lemma BlankIff(s: string, t: string, r: string)
    requires |t| <= |s| && t == s[|s| - |t|..] && AllWhitespace(s[..|s| - |t|])
    requires t == [] || !IsWhitespace(t[0])
    requires |r| <= |t| && r == t[..|r|] && AllWhitespace(t[|r|..])
    ensures r == [] <==> AllWhitespace(s)
  {
    var i := |s| - |t|;
    if r == [] {
      // All of `t` is whitespace, and `t` does not start with whitespace.
      assert t[|r|..] == t;
      assert i == |s|;
      forall k | 0 <= k < |s| ensures IsWhitespace(s[k]) {
        assert s[k] == s[..i][k];
      }
    } else {
      assert s[i] == t[0];
    }
  }

  /** ASCII case folding; other characters are returned unchanged. */
  function Lower(c: char): char {
    if 'A' <= c <= 'Z' then (c as int - 'A' as int + 'a' as int) as char else c
  }

  function LowerStr(s: string): (r: string)
    ensures |r| == |s|
    ensures forall i :: 0 <= i < |s| ==> r[i] == Lower(s[i])
  {
    if |s| == 0 then [] else [Lower(s[0])] + LowerStr(s[1..])
  }

  /** Lower-casing neither creates nor removes whitespace. */
  lemma LowerKeepsWhitespace(c: char)
    ensures IsWhitespace(Lower(c)) <==> IsWhitespace(c)
  {
  }

  /** `hay.includes(needle)`, as a reference definition by position. */
  ghost predicate OccursAt(hay: string, needle: string, i: int) {
    0 <= i && i + |needle| <= |hay| && hay[i..i + |needle|] == needle
  }

  /** `hay.includes(needle)`, computed by scanning start positions. */
  function Contains(hay: string, needle: string): (b: bool)
    ensures b <==> exists i :: OccursAt(hay, needle, i)
  {
    if |needle| <= |hay| && hay[..|needle|] == needle then
      assert OccursAt(hay, needle, 0);
      true
    else if |hay| == 0 then
      assert forall i :: !OccursAt(hay, needle, i);
      false
    else
      var rest := Contains(hay[1..], needle);
      assert forall i :: OccursAt(hay[1..], needle, i) ==> OccursAt(hay, needle, i + 1) by {
        forall i | OccursAt(hay[1..], needle, i) ensures OccursAt(hay, needle, i + 1) {
          assert hay[i + 1..i + 1 + |needle|] == hay[1..][i..i + |needle|];
        }
      }
      assert forall i :: OccursAt(hay, needle, i) ==> i >= 1 && OccursAt(hay[1..], needle, i - 1) by {
        forall i | OccursAt(hay, needle, i) ensures i >= 1 && OccursAt(hay[1..], needle, i - 1) {
          assert hay[1..][i - 1..i - 1 + |needle|] == hay[i..i + |needle|];
        }
      }
      rest
  }

  /** `parts.join(sep)`. */
  function Join(parts: seq<string>, sep: string): (r: string)
    ensures |parts| == 0 ==> r == ""
    ensures |parts| == 1 ==> r == parts[0]
  {
    if |parts| == 0 then ""
    else if |parts| == 1 then parts[0]
    else parts[0] + sep + Join(parts[1..], sep)
  }

  /** Appending one more part adds the separator and the part at the end. */
  lemma {:induction false} JoinAppend(parts: seq<string>, x: string, sep: string)
    requires |parts| >= 1
    ensures Join(parts + [x], sep) == Join(parts, sep) + sep + x
    decreases |parts|
  {
    if |parts| > 1 {
      assert (parts + [x])[1..] == parts[1..] + [x];
      JoinAppend(parts[1..], x, sep);
    } else {
      assert (parts + [x])[1..] == [x];
    }
  }

  function DigitChar(d: int): char
    requires 0 <= d < 10
  {
    ('0' as int + d) as char
  }

  /** Decimal rendering of a natural number, as `String(n)` prints it. */
  function NatToString(n: nat): (r: string)
    ensures |r| >= 1
    ensures forall i :: 0 <= i < |r| ==> '0' <= r[i] <= '9'
    ensures |r| > 1 ==> r[0] != '0'
  {
    if n < 10 then [DigitChar(n)] else NatToString(n / 10) + [DigitChar(n % 10)]
  }

  /** The value of a string of decimal digits, read left to right. */
  function DigitsValue(s: string): int
    decreases |s|
  {
    if |s| == 0 then 0 else DigitsValue(s[..|s| - 1]) * 10 + (s[|s| - 1] as int - '0' as int)
  }

  /** Reading the rendering back gives the number. */
  lemma {:induction false} NatToStringRoundTrip(n: nat)
    ensures DigitsValue(NatToString(n)) == n
  {
    if n >= 10 {
      var r := NatToString(n);
      assert r[..|r| - 1] == NatToString(n / 10);
      NatToStringRoundTrip(n / 10);
    }
  }

  /** Decimal rendering of an integer, with a leading '-' when negative. */
  function IntToString(n: int): string {
    if n < 0 then "-" + NatToString(-n) else NatToString(n)
  }
}

=== FILE: user_currency.dfy ===
/** `getUserCurrency` of `src/utils/getUserCurrency.ts`: the visitor's
    location and currency from four cookies, else from the IP-geolocation
    service (then written back to the cookies), else from the cookies again,
    else the Canadian default. The cookie jar is read at the start and again
    in the catch block; both snapshots are parameters, as is the outcome of
    the geolocation request. The function never rejects. */
module UserCurrency {
  import opened Js

  /** `UserLocationData` */
  datatype Location = Location(country: string, currency: string, currencyCode: string, countryCode: string)

  /** `DEFAULT_LOCATION` */
  const DefaultLocation := Location("Canada", "CAD", "CAD", "CA")

  /** The cookies visible to the page, by name. */
  type CookieJar = map<string, string>

  /** The fields of the geolocation service's JSON body that are read. */
  datatype IpData = IpData(countryName: Option<string>, currency: Option<string>, countryCode: Option<string>)

  /** The answer, the cookie jar afterwards, and whether the geolocation
      request was made and succeeded (false both when no request was made
      and when it failed); exactly then are cookies written. */
  datatype Resolution = Resolution(location: Location, jar: CookieJar, fetched: bool)

  /** `Cookies.get(name)` */
  function Get(jar: CookieJar, name: string): (v: Option<string>)
    ensures v.Some? <==> name in jar
    ensures v.Some? ==> v.value == jar[name]
  {
    if name in jar then Some(jar[name]) else None
  }

  /** Every field is a non-empty string. */
  predicate Complete(l: Location) {
    l.country != "" && l.currency != "" && l.currencyCode != "" && l.countryCode != ""
  }

  /** The four-cookie test: a location only when every cookie is truthy. */
  function Cached(jar: CookieJar): (r: Option<Location>)
    ensures r.Some? <==> Truthy(Get(jar, "country")) && Truthy(Get(jar, "currency"))
                         && Truthy(Get(jar, "currencyCode")) && Truthy(Get(jar, "countryCode"))
    ensures r.Some? ==> Complete(r.value)
                        && r.value == Location(jar["country"], jar["currency"], jar["currencyCode"], jar["countryCode"])
  {
    var a, b, c, d := Get(jar, "country"), Get(jar, "currency"), Get(jar, "currencyCode"), Get(jar, "countryCode");
    if Truthy(a) && Truthy(b) && Truthy(c) && Truthy(d) then Some(Location(a.value, b.value, c.value, d.value))
    else None
  }

  /** The location built from the service's body: each field falls back to
      the default's when missing or empty, and both currency fields come from
      the same `currency` property. */
  function FromIp(data: IpData): (l: Location)
    ensures Complete(l)
    ensures l.currency == l.currencyCode
    ensures l.country == (if Truthy(data.countryName) then data.countryName.value else DefaultLocation.country)
    ensures l.currency == (if Truthy(data.currency) then data.currency.value else DefaultLocation.currency)
    ensures l.countryCode == (if Truthy(data.countryCode) then data.countryCode.value else DefaultLocation.countryCode)
  {
    Location(OrElse(data.countryName, DefaultLocation.country),
             OrElse(data.currency, DefaultLocation.currency),
             OrElse(data.currency, DefaultLocation.currencyCode),
             OrElse(data.countryCode, DefaultLocation.countryCode))
  }

  /** The four `Cookies.set` calls: exactly those four cookies are written,
      and nothing else is added or changed. */
  function Store(jar: CookieJar, l: Location): (j: CookieJar)
    ensures "country" in j && "currency" in j && "currencyCode" in j && "countryCode" in j
    ensures j["country"] == l.country && j["currency"] == l.currency
            && j["currencyCode"] == l.currencyCode && j["countryCode"] == l.countryCode
    ensures Complete(l) ==> Cached(j) == Some(l)
    ensures forall name :: name in j ==> name in jar || name in {"country", "currency", "currencyCode", "countryCode"}
    ensures forall name :: name in jar && name !in {"country", "currency", "currencyCode", "countryCode"}
                           ==> name in j && j[name] == jar[name]
  {
    jar["country" := l.country]["currency" := l.currency]["currencyCode" := l.currencyCode]["countryCode" := l.countryCode]
  }

  /** `getUserCurrency()`. `jar` is the cookie jar at the call, `ip` the
      geolocation outcome (a body that fails to parse counts as
      `Unreachable`), and `jarAtFailure` the cookie jar when the catch block
      reads it again. */
  function GetUserCurrency(jar: CookieJar, ip: Response<IpData>, jarAtFailure: CookieJar): (r: Resolution)
    // Whatever happens, the answer has four non-empty fields.
    ensures Complete(r.location)
    // Complete cookies answer without a request and without a write.
    ensures Cached(jar).Some? ==> r == Resolution(Cached(jar).value, jar, false)
    // Otherwise the service is asked; its answer is returned and cached.
    ensures Cached(jar).None? && ip.Ok? ==>
              r.fetched && r.location == FromIp(ip.body) && Cached(r.jar) == Some(r.location)
              && r.jar == Store(jar, r.location)
    // A failed request falls back to the cookies as they are then, else to the default.
    ensures Cached(jar).None? && !ip.Ok? ==>
              !r.fetched && r.jar == jarAtFailure
              && r.location == (if Cached(jarAtFailure).Some? then Cached(jarAtFailure).value else DefaultLocation)
    // Only a successful request writes cookies.
    ensures !r.fetched ==> r.jar == jar || r.jar == jarAtFailure
  {
    match Cached(jar)
    case Some(l) => Resolution(l, jar, false)
    case None =>
      match ip
      case Ok(data) =>
        var l := FromIp(data);
        Resolution(l, Store(jar, l), true)
      case _ =>
        match Cached(jarAtFailure)
        case Some(l) => Resolution(l, jarAtFailure, false)
        case None => Resolution(DefaultLocation, jarAtFailure, false)
  }

  // ---------------------------------------------------------------- lemmas

  /** The fetched location round-trips through the cookies: the next call
      returns it again without a request, whatever the network would do. */
  lemma FetchedLocationReused(jar: CookieJar, ip: Response<IpData>, jarAtFailure: CookieJar,
                              ip': Response<IpData>, jarAtFailure': CookieJar)
    requires GetUserCurrency(jar, ip, jarAtFailure).fetched
    ensures var first := GetUserCurrency(jar, ip, jarAtFailure);
            GetUserCurrency(first.jar, ip', jarAtFailure') == Resolution(first.location, first.jar, false)
  {
  }

  /** When nothing changes the cookies between the two reads, the catch
      block's second look at the cookies never finds anything: a failed
      request gives the default location. */
  lemma FailureWithUnchangedCookiesIsDefault(jar: CookieJar, ip: Response<IpData>)
    requires Cached(jar).None? && !ip.Ok?
    ensures GetUserCurrency(jar, ip, jar) == Resolution(DefaultLocation, jar, false)
  {
  }

  /** A body with every field present and non-empty is taken as is. */
  lemma FullBodyTakenVerbatim(jar: CookieJar, name: string, cur: string, code: string, jarAtFailure: CookieJar)
    requires Cached(jar).None?
    requires name != "" && cur != "" && code != ""
    ensures GetUserCurrency(jar, Ok(IpData(Some(name), Some(cur), Some(code))), jarAtFailure).location
            == Location(name, cur, cur, code)
  {
  }
}
